=== FILE: README.md ===
# Job schema converter and task store, in Dafny

This project models two parts of a small Vue application.

1. **The run-time type checker in `src/types/job.ts`.** This is the
   `quicktype`-style converter behind `Convert.toJob` / `Convert.jobToJson`:
   - `transform`, with its primitive, union, enum, array, date and object helpers;
   - `cast` and `uncast`;
   - the property tables `jsonToJSProps` and `jsToJSONProps`;
   - the error path `invalidValue` and `prettyTypeName`;
   - the schema constructors `l`, `a`, `u`, `o`, `m` and `r`;
   - the registry `typeMap`.
2. **The actions of the task store in `src/stores/task.ts`:** `addNewTask`,
   `removeTask` and `markDone`.

## How the model is built

Everything is a pure function:
- JavaScript values are the datatype `Json.JVal`.
- An object is an ordered list of fields. Assigning a property updates it
  in place, or appends it when it is new.
- Schemas are the datatype `Schemas.Schema`:
  - the schema values `"any"`, `null`, `false` and `undefined` become
    `Any`, `Null`, `Never` and `Absent`;
  - the primitive examples `""`, `0` and `true` become `Prim`;
  - string arrays become `Enum`;
  - `l`, `a`, `u`, `o`, `m` and `r` become `ExpLiteral`, `Arr`, `Union`,
    `Obj`, `Schemas.MapOf` and `Ref`;
  - the global `Date` becomes `DateT`.

A thrown error is `Results.Failure` carrying `Errors.Err`. An
`Errors.Err.Invalid` records the arguments `invalidValue` is called with: the
expected type, the offending value, the key and the parent. The text thrown
from them is `Errors.Message`, once the value is rendered. Where
`Errors.PrettyTypeNameAsWritten` gives no text for the expected type (the
null schema is among the types to print), the source does not throw that
message at all. `prettyTypeName` itself throws a TypeError with no key,
parent or type list (line 116; see "## Findings"). The other failure is
`Errors.Err.NullDereference`, the TypeError of reading `.ref` of a null
registry entry. The converter is
`Engine.Transform`. The direction `Decode` (`jsonToJSProps`) or `Encode`
(`jsToJSONProps`) stands for the `getProps` argument. `Engine.Cast` and
`Engine.Uncast` fix the direction.

The registry is `Schemas.Registry`. Each name carries a rank: a definition
mentions only names of lower rank. This is what makes the reference loop,
and the converter, terminate.

Host services are parameters:
- The date parser (`new Date(val)` together with its `isNaN` test) is
  `Engine.Ctx.parseDate`.
- The rendering of the offending value (`JSON.stringify`) is the `got`
  argument of `Errors.Message`.
- The fresh id drawn by `uid()` is the `freshId` argument of
  `TaskStore.AddNewTask`.

Two behaviours of the code worth knowing:
- Elements of arrays and members of unions are converted with an empty key
  and an empty parent. The code passes no key (line 159 and line 180), so an
  error inside an array or union does not carry the index or the enclosing
  property.
- A reference to a name that `typeMap` does not define does not stop the
  converter. `typeMap` is a plain object literal, so the lookup can give
  three things:
  - for most names it gives `undefined`, and only a missing value passes
    (`RefFacts.UnknownRef`);
  - for a method name inherited from `Object.prototype`, such as
    `toString`, it gives that method, and every value is rejected as
    "function" (`Engine.InheritedMethods`, `RefFacts.InheritedRef`);
  - for `__proto__` it gives `Object.prototype` itself, and every value is
    rejected as "object".

## Model

| member | source | states |
|---|---|---|
| Errors.MessageClauses | src/types/job.ts:94-103 | The thrown text starts with "Invalid value". It has the `for key "…"` clause exactly when the key is non-empty, and that clause quotes the key. It has the ` on …` clause exactly when the parent is non-empty; that clause comes after the key clause and names the parent. The text always ends with ". Expected ", the printed expected type, " but got " and the rendered value. |
| Errors.AsWrittenAgrees | src/types/job.ts:105-121 | Whenever the source's `prettyTypeName` produces a message, it is the corrected one. It produces none exactly when the null schema is among the printed types: alone, as the optional member, or as a member of a listed union. |
| Errors.NullableStringMessage | src/types/job.ts:105-121 | For the nullable string `u(null, "")` (registry lines 289, 290, 361) the source's message does not exist. In the corrected one, the type prints as "one of [null, string]", so the message ends with ". Expected one of [null, string] but got " and the rendered value. |
| PropNames.EntriesTable | src/types/job.ts:123-139 | Every declared read name has exactly one entry. That entry points at the last property declared under the name and carries that property's written name. |
| PropNames.EntriesOfDistinct | src/types/job.ts:123-139 | When read names are distinct, the table lists every property once, in declaration order, with its read and written names. |
| PropNames.NameMapsInverse | src/types/job.ts:123-139 | When JSON and JavaScript names are each distinct, the decoding table and the encoding table are mirror images. Entry `i` of one reads what entry `i` of the other writes. |
| Engine.Transform | src/types/job.ts:218-242 | No contract of its own: `transform` itself. It is characterised by `EngineFacts.DispatchPrecedence`, `Plain.PlainTransform`, `RefFacts.ShallowTransform` and the `RoundTrip` lemmas. |
| Engine.Resolved | src/types/job.ts:224-241 | No contract of its own: the dispatch after the reference loop. It is characterised per kind by `EngineFacts`, `ObjectFacts` and `RefFacts`. |
| Engine.Unregistered | src/types/job.ts:224-241 | A name the registry does not define succeeds exactly when it is not inherited from `Object.prototype` and the value is `undefined`, and then returns the value. Every failure rejects the value itself under the given key and parent. |
| Engine.Primitive | src/types/job.ts:148-151 | No contract of its own: `transformPrimitive`. It is characterised by `EngineFacts.PrimitiveCheck`. |
| Engine.Cast | src/types/job.ts:244-246 | No contract of its own: `transform` in the decoding direction with no key or parent. It is characterised by `RoundTrip.CastThenUncast` and the `TypeMap` lemmas. |
| Engine.Uncast | src/types/job.ts:248-250 | No contract of its own: `transform` in the encoding direction with no key or parent. It is characterised by `RoundTrip.CastThenUncast` and `RoundTrip.DateNotRestored`. |
| Errors.Message | src/types/job.ts:94-103 | No contract of its own: the corrected `invalidValue` text. It is characterised by `Errors.MessageClauses`. |
| Errors.PrettyTypeName | src/types/job.ts:105-121 | No contract of its own: the corrected `prettyTypeName`. It is characterised by `Errors.AsWrittenAgrees` and `TypeMap.OptionalStringsName`. |
| Errors.PrettyTypeNameAsWritten | src/types/job.ts:105-121 | No contract of its own: `prettyTypeName` as written. It is characterised by `Errors.AsWrittenAgrees` and `Errors.NullableStringMessage`. |
| PropNames.Entries | src/types/job.ts:123-139 | Every entry points into the property list. It is characterised fully by `PropNames.EntriesTable`. |
| EngineFacts.DispatchPrecedence | src/types/job.ts:218-223 | `"any"` returns the value itself. `null` accepts exactly null. `false` rejects every value, with `false` as the expected type. |
| EngineFacts.PrimitiveCheck | src/types/job.ts:148-151 | A primitive schema or `undefined` succeeds exactly on values of the same `typeof`, and returns them unchanged. Otherwise the error names the schema, key and parent. |
| EngineFacts.EnumMembership | src/types/job.ts:165-175 | An enum succeeds exactly on a listed string, unchanged. Otherwise the expected type lists every case and prints as "one of [...]". |
| EngineFacts.TryMembersFirst | src/types/job.ts:153-163 | The member loop finds nothing exactly when every remaining member fails. Otherwise its result is that of the first member that succeeds. |
| EngineFacts.UnionFirstWins | src/types/job.ts:153-163 | A union converts like its first member that succeeds, each member tried with no key or parent. If every member fails, the error lists all members. |
| EngineFacts.ItemsSpec | src/types/job.ts:177-181 | The element loop succeeds exactly when every remaining element converts. It then keeps length and order. If an element fails, the error is that of the first element that fails. |
| EngineFacts.ArrayElementwise | src/types/job.ts:177-181 | A non-array is rejected as "array". An array converts element by element with no key or parent, keeping its length. The first failing element decides the error. |
| EngineFacts.DateCoercion | src/types/job.ts:183-192 | Null becomes null. A number is rejected by the `typeof` test against `Date`, a function (line 240). An unparsable value is rejected as "Date". Anything else becomes the parsed date. |
| ObjectFacts.ObjectShape | src/types/job.ts:199-201 | Null, arrays and non-objects are rejected, with the reference name (or "object") as the expected type. |
| ObjectFacts.ObjectAccepts | src/types/job.ts:202-215 | An object converts exactly when every declared property converts and every undeclared own property converts. |
| ObjectFacts.ObjectFirstError | src/types/job.ts:202-215 | A rejected object reports the first declared property that fails. If every declared property converts, it reports the first undeclared own property that fails. |
| ObjectFacts.ObjectNames | src/types/job.ts:202-215 | The result names exactly the written names of the table plus the own names the table does not declare. |
| ObjectFacts.ObjectUnique | src/types/job.ts:202-215 | The result object never holds a name twice. |
| ObjectFacts.DeclaredValue | src/types/job.ts:203-209 | A declared property that no later entry and no undeclared property overwrites holds its own converted value under its written name. |
| ObjectFacts.ExtraValue | src/types/job.ts:210-214 | An undeclared own property keeps its name and holds its converted value. |
| ObjectFacts.UndeclaredSpec | src/types/job.ts:210-214 | A field is kept as undeclared exactly when it is an own field whose name the table does not declare. The filter repeats no name the own fields did not repeat. |
| RefFacts.UnknownRef | src/types/job.ts:224-228 | A name the registry neither defines nor inherits from `Object.prototype` accepts only a missing value. Otherwise the error names `undefined` as expected. |
| RefFacts.InheritedRef | src/types/job.ts:224-241 | A name the registry does not define but inherits from `Object.prototype` rejects every value. The expected type prints as "function" for a method and as "object" for `__proto__`. |
| RefFacts.NullEntry | src/types/job.ts:224-228 | A registry entry that is null makes the loop read `.ref` of null, which is a failure with no message. |
| RefFacts.RefTransparent | src/types/job.ts:224-238 | A reference to an enum, union, array, date, primitive or `undefined` converts exactly like the definition written in place. |
| RefFacts.RefToAnyOrNever | src/types/job.ts:224-241 | `"any"` reached through a reference accepts exactly strings, and `false` exactly booleans, because the early tests are already past. |
| RefFacts.RefShape | src/types/job.ts:199-201 | A wrong-shaped value for a referenced object is reported under the reference name. |
| RefFacts.ShallowFailure | src/types/job.ts:141-242 | A value with nothing to descend into (not an object, date or array) is rejected where it stands: the error is about that value, under the key and parent given, whatever chain of references leads to the schema. The only other failure is the null dereference of a null registry entry. |
| RefFacts.ShallowTransform | src/types/job.ts:218-242 | The same from the top of `transform`, including the `null` and `false` schemas. |
| RefFacts.MissingField | src/types/job.ts:203-208 | A declared property missing from the value is read as `undefined`. When its schema rejects `undefined` (a primitive, a nullable union, an enum, an object or array, through references too), the object fails. When the earlier properties convert, the object's error is that property's error. That error is the call `invalidValue(expected, undefined, property, reference)`, or the null dereference of a null registry entry. A primitive property reports its own schema as expected. When the expected type contains `null` (a nullable union such as `u(0, null)`), that call throws the TypeError of "## Findings" instead of a message. |
| RefFacts.ClosedObjectRejectsExtra | src/types/job.ts:210-214 | With `false` for undeclared properties, any undeclared own property rejects the object. When the declared ones convert, the error names the first undeclared property and its value. |
| Plain.PlainTransform | src/types/job.ts:141-242 | A schema without objects, references or dates converts a value exactly when the value is of the described shape (`Plain.Admits`), and returns it unchanged, in both directions. |
| RoundTrip.FlatConverts | src/types/job.ts:194-216 | An object schema with plain parts and distinct names takes every object it admits to a copy. In the copy the declared properties are renamed, missing ones are present as `undefined`, and the undeclared ones are kept. This needs `NoShadow`: no undeclared own property may carry a name the other direction reads. |
| RoundTrip.FlatRoundTrip | src/types/job.ts:141-242 | For such a schema, and an object it admits that satisfies `NoShadow`, converting and then converting back in the other direction succeeds. Every property reads as in the original, and the names are the original ones plus the declared ones. |
| RoundTrip.CastThenUncast | src/types/job.ts:244-250 | `uncast(cast(v, s), s)` succeeds and reads exactly like `v`. This holds for an object schema with plain parts and distinct names, and an admitted `v` satisfying `NoShadow`. |
| RoundTrip.RefCastThenUncast | src/types/job.ts:224-250 | The same round trip through `r(name)`, for a name whose definition is such a schema, under the same `NoShadow` condition. |
| RoundTrip.DateNotRestored | src/types/job.ts:183-192 | A string that `cast` accepts as a date becomes a date, and `uncast` of that date never gives back the string. |
| RoundTrip.UnionSwitchesMember | src/types/job.ts:153-163 | For `u(o([{json: p, js: q, typ: 0}], false), m("any"))` and `{q: x}`, decoding picks the second member and encoding the first. So `uncast(cast(v))` holds `x` under `p` and nothing under `q`. |
| Schemas.RefFreeLevel | src/types/job.ts:252-274 | A schema built without `r(...)` sits at level 0 under any ranking, so it can be given rank 0. |
| TypeMap.RegValid | src/types/job.ts:367-432 | The modelled registry entries are ranked well-foundedly, so the reference loop terminates on them. |
| TypeMap.CountryOnlyUS | src/types/job.ts:429 | `r("JobCountry")` accepts exactly the string "US". Otherwise it fails, listing "US" as expected. |
| TypeMap.ParametersMissingPage | src/types/job.ts:421-428 | A `Parameters` object with a string `query` and no `page` fails, with key `page`, parent `Parameters` and an expected number. |
| TypeMap.MissingMonthsRejected | src/types/job.ts:411-415 | The nullable `required_experience_in_months` field (`u(0, null)`) rejects a missing value: `transformUnion` calls `invalidValue` with both members, the given key and the given parent. So a `JobRequiredExperience` without it fails as `RefFacts.MissingField` describes. Since `null` is a member, printing that call's message throws the TypeError of "## Findings" (`Errors.AsWrittenAgrees`). |
| TypeMap.ParametersExtraKey | src/types/job.ts:421-428 | A well-typed `Parameters` object with one more own property fails. The error names an undeclared own property and its value, with `false` as the expected type and `Parameters` as parent. |
| TypeMap.ParametersRoundTrip | src/types/job.ts:421-428 | Casting a well-typed `Parameters` object and uncasting the result gives back the same names and the same values. |
| TypeMap.PagedDeclared | src/types/job.ts:421-428 | For an object of the `Parameters` shape, the three declared properties all convert exactly when `query` is a string and both `page` and `num_pages` are numbers. |
| TypeMap.HighlightsOptional | src/types/job.ts:367-382 | `r("JobHighlights")` accepts an empty object. The result holds the three lists, each as `undefined`. |
| TypeMap.OptionalStringsName | src/types/job.ts:105-121 | The optional list `u(undefined, a(""))` prints as "an optional object", since an array schema is an object. |
| TaskStore.AddNewTask | src/stores/task.ts:12-15 | The list grows by one. The earlier tasks are untouched. The new last task has the fresh id and the given text and done flag. |
| TaskStore.RemoveTask | src/stores/task.ts:17-20 | A task survives exactly when its id differs from the removed one, and it survives as often as it occurred. No survivor carries the id. |
| TaskStore.RemoveOne | src/stores/task.ts:17-20 | On a single task, removal keeps it exactly when its id differs. |
| TaskStore.RemoveConcat | src/stores/task.ts:17-20 | Removing from a concatenation is removing from each part. With `RemoveOne`, this pins removal down as the order-keeping `filter`. |
| TaskStore.RemoveMissing | src/stores/task.ts:17-20 | When no task carries the id, the list comes back unchanged. |
| TaskStore.RemoveUndoesAdd | src/stores/task.ts:12-20 | Removing a freshly added id gives back the list from before the addition. |
| TaskStore.RemoveIdempotent | src/stores/task.ts:17-20 | Removing twice is removing once. |
| TaskStore.FirstIndex | src/stores/task.ts:23 | `find`: the index found carries the id and no earlier task does, and there is none exactly when no task carries the id. |
| TaskStore.MarkDone | src/stores/task.ts:22-25 | Ids and texts are kept. Exactly the first task carrying the id has its `done` flag flipped. Nothing changes when no task carries it. |
| TaskStore.MarkDoneTwice | src/stores/task.ts:22-25 | Marking the same id twice restores the list. |

## Left out

- `Convert.toJob` / `Convert.jobToJson` (lines 84-92) are left out. They only add `JSON.parse` and `JSON.stringify` around `cast` and `uncast`, and text parsing and printing are not modelled.
- Date parsing (`new Date`, `isNaN`) is the `parseDate` parameter, because it is host behaviour. A date is an integer time value.
- Numbers are unbounded integers. Floating point (`NaN`, `3.14`) is not modelled; only `typeof` matters to the converter.
- The tables cached on the schema objects (`typ.jsonToJS`, `typ.jsToJSON`) are left out. Caching does not change a table, so the model recomputes it.
- The ordering of JavaScript property names is left out. JavaScript lists integer-like names (such as "1") before all others, and the model keeps insertion order. For objects without integer-like names the two agree. Otherwise the result's field order differs, and so can the two things below.
- ObjectFacts.DeclaredValue: when two declared properties write the same name, the model keeps the value of the one later in declaration order. JavaScript keeps the one it processes last, and it processes integer-like names first. With `[{json: "b", js: "x"}, {json: "1", js: "x"}]`, JavaScript keeps `b`'s value, while the model keeps the value of `"1"`.
- ObjectFacts.ObjectFirstError: "first" follows the model's order. With integer-like names, JavaScript may report a different failing property.
- The special behaviour of the name `__proto__` on ordinary objects is left out. Assigning to it sets the object's prototype instead of creating a field. The model treats it as a plain name in three places: an own property of a value, a JSON or JavaScript name in a property table (`map[p.json] = …`, lines 126 and 135), and a name written into the result (lines 208 and 212). The registry lookup of that name is modelled.
- Registries with reference cycles are outside the model, because `Schemas.Valid` asks for a ranking. This excludes more than the source needs. A cycle that passes through an object or array schema, such as a tree-shaped schema, ends on every finite value in the source, because each step descends into a smaller part of the value. A cycle made of references alone makes the loop at lines 225-228 spin forever. A cycle through unions alone recurses forever at lines 153-163, without descending into the value, until the host's stack runs out.
- The `Job` and `Datum` entries of `typeMap` (lines 277-366) are left out. The modelled registry holds the other seven entries. The per-kind facts (`EngineFacts`, `ObjectFacts`, `RefFacts`) apply to these two as well. The round-trip lemmas do not: `Job` nests `r("Parameters")` and `a(r("Datum"))`, and `Datum` has two `Date` properties (lines 315 and 327).
- RoundTrip.FlatRoundTrip: proved only for object schemas whose parts contain no nested object, reference or date. Two of these exclusions are needed, because the round trip is false there:
  - a date does not come back as its text (`RoundTrip.DateNotRestored`);
  - a union whose members are objects can take a different member in each direction (`RoundTrip.UnionSwitchesMember`).
  For nested objects and references without dates or such unions, the round trip is expected to hold but is not proved. That proof would need the renamed-copy relation to hold at every depth, by induction on the reference rank. `Job` is such a nesting, but it holds dates, so no round trip is promised for it.
- RoundTrip.CastThenUncast: limited to flat object schemas, for the reasons given for `RoundTrip.FlatRoundTrip`.
- RoundTrip.RefCastThenUncast: limited to a name whose definition is a flat object schema, for the reasons given for `RoundTrip.FlatRoundTrip`. A definition that itself names other definitions, such as `Job`, is not covered.
- Errors.MessageClauses: the value rendering (`JSON.stringify`) is the parameter `got`, so the rendered value is not modelled. The key, the parent and the expected type are stated.
- The schema constructors `l`, `a`, `u`, `o`, `m` and `r` are constructors of `Schemas.Schema` and `Errors.Expected`, and `m` is `Schemas.MapOf`. They are plain data, so they have nothing to prove.
- Aliasing is left out. `addNewTask` mutates the caller's task object, and `markDone` mutates the stored one; the model returns new lists.
- The `Task` type module (`@/types/task`) is not part of this model. `TaskStore.Task` assumes an `id`, a `text` label and a `done` flag.
- Pinia's store machinery, hot module reload, the router and the job store are left out; they are framework wiring.

## Findings

| source | as written | input that shows it | evidently intended | confidence | as-written member | corrected member |
|---|---|---|---|---|---|---|
| src/types/job.ts:116 | `typeof typ === "object" && typ.literal !== undefined` reads `.literal` of the null schema, since `typeof null` is "object". So every error whose expected type is or contains `null` throws a TypeError instead of the "Invalid value …" message. | the union `u(null, "")` (line 361) given the number 5; or the schema `null` (line 363) given any non-null value | the message naming `null`, e.g. "Expected one of [null, string] but got 5" | not executed | Errors.NullableStringMessage | Errors.MessageClauses |

=== FILE: engine.dfy ===
/**
  The converter: `transform(val, typ, getProps, key, parent)` walking a value
  and a schema together, and its two entry points `cast` (decode, JSON names
  to JavaScript names) and `uncast` (encode, the reverse).
*/
module Engine {
  import opened Results
  import opened Json
  import opened Schemas
  import opened PropNames
  import opened Errors

  /**
    What the converter consults besides its arguments: the registry
    (`typeMap`) and the host's date parser (`new Date(val)`, None when
    `isNaN(d.valueOf())`).
  */
  datatype Ctx = Ctx(reg: Registry, parseDate: JVal -> Option<int>)

  /**
    The names a plain object literal such as `typeMap` inherits from
    `Object.prototype` with a method as value. Looking one of them up where
    the registry does not define it yields that method: its `typeof` is
    "function", so the reference loop stops and the primitive test rejects
    every value. (`__proto__` yields `Object.prototype` itself, an object
    with no schema marker, which is rejected as "object".)
  */
  const InheritedMethods: set<string> := {
    "constructor", "hasOwnProperty", "isPrototypeOf", "propertyIsEnumerable", "toLocaleString",
    "toString", "valueOf", "__defineGetter__", "__defineSetter__", "__lookupGetter__", "__lookupSetter__"
  }

  /**
    `transform`: the three tests made before references are followed
    (`"any"`, `null`, `false`), then the rest of the dispatch.
  */
  function Transform(ctx: Ctx, dir: Direction, v: JVal, s: Schema, key: string, parent: string): Result<JVal, Err>
    requires Valid(ctx.reg)
    decreases Level(ctx.reg, s), s, 2, 0
  {
    match s
    case Any => Success(v)
    case Null => if v == JNull then Success(v) else Failure(Invalid(ExpSchema(Null), v, key, parent))
    case Never => Failure(Invalid(ExpSchema(Never), v, key, parent))
    case _ => Resolved(ctx, dir, v, s, "", key, parent)
  }

  /**
    The dispatch from the reference loop on; `refName` is the name of the last
    reference followed ("" when none). Once here the `"any"`, `null` and
    `false` tests are behind: a registry entry that is null breaks the loop
    itself, and `"any"` or `false` reached through a reference are compared by
    `typeof` like any primitive.
  */
  function Resolved(ctx: Ctx, dir: Direction, v: JVal, s: Schema, refName: string, key: string, parent: string): Result<JVal, Err>
    requires Valid(ctx.reg)
    decreases Level(ctx.reg, s), s, 1, 0
  {
    match s
    case Null => Failure(NullDereference)
    case Ref(n) =>
      if n in ctx.reg.defs then Resolved(ctx, dir, v, ctx.reg.defs[n], n, key, parent)
      else Unregistered(v, n, key, parent)
    case Enum(cases) =>
      if v.JStr? && v.str in cases then Success(v)
      else Failure(Invalid(ExpLiterals(cases), v, key, parent))
    case Union(ms) =>
      (match TryMembers(ctx, dir, v, s, 0)
       case Some(w) => Success(w)
       case None => Failure(Invalid(ExpMembers(ms), v, key, parent)))
    case Arr(_) =>
      if !v.JArr? then Failure(Invalid(ExpLiteral("array"), v, key, parent))
      else
        (match Items(ctx, dir, v.elems, s, 0)
         case Success(ws) => Success(JArr(ws))
         case Failure(err) => Failure(err))
    case Obj(_, _) =>
      if !IsObjectLike(v) then Failure(Invalid(ExpLiteral(ShapeName(refName)), v, key, parent))
      else ObjectOf(DeclaredFields(ctx, dir, v, s, refName), ExtraFields(ctx, dir, v, s, refName))
    case DateT =>
      if v.JNum? then Primitive(v, DateT, key, parent)
      else if v == JNull then Success(JNull)
      else
        (match ctx.parseDate(v)
         case None => Failure(Invalid(ExpLiteral("Date"), v, key, parent))
         case Some(t) => Success(JDate(t)))
    case _ => Primitive(v, s, key, parent)
  }

  /**
    A reference to a name the registry does not define: `typeMap[n]` is an
    inherited method, `Object.prototype` (for `__proto__`) or `undefined`.
  */
  function Unregistered(v: JVal, n: string, key: string, parent: string): (r: Result<JVal, Err>)
    ensures r.Success? <==> n !in InheritedMethods && n != "__proto__" && v == Undefined
    ensures r.Success? ==> r.value == v
    ensures r.Failure? ==> r.error.Invalid? && r.error.value == v && r.error.key == key && r.error.parent == parent
  {
    if n in InheritedMethods then Failure(Invalid(ExpHost(TFunction), v, key, parent))
    else if n == "__proto__" then Failure(Invalid(ExpHost(TObject), v, key, parent))
    else Primitive(v, Absent, key, parent)
  }

  /**
    The result object: the declared properties assigned first, then the
    undeclared ones (`result[k] = ...` in that order); the first error wins.
  */
  function ObjectOf(declared: Result<seq<Field>, Err>, extra: Result<seq<Field>, Err>): Result<JVal, Err> {
    match declared
    case Failure(err) => Failure(err)
    case Success(d) =>
      (match extra
       case Failure(err) => Failure(err)
       case Success(x) => Success(JObj(PutAll([], d + x))))
  }

  /** `ref || "object"`. */
  function ShapeName(refName: string): string {
    if refName == "" then "object" else refName
  }

  /** `transformPrimitive`: `typeof typ === typeof val`. */
  function Primitive(v: JVal, s: Schema, key: string, parent: string): Result<JVal, Err> {
    if SchemaType(s) == TypeOf(v) then Success(v)
    else Failure(Invalid(ExpSchema(s), v, key, parent))
  }

  /** `transformUnion`'s loop from member `i`: the first member that converts `v`, each tried with no key or parent. */
  function TryMembers(ctx: Ctx, dir: Direction, v: JVal, s: Schema, i: nat): Option<JVal>
    requires Valid(ctx.reg) && s.Union? && i <= |s.members|
    decreases Level(ctx.reg, s), s, 0, |s.members| - i
  {
    if i == |s.members| then None
    else
      LevelOfParts(ctx.reg, s);
      match Transform(ctx, dir, v, s.members[i], "", "")
      case Success(w) => Some(w)
      case Failure(_) => TryMembers(ctx, dir, v, s, i + 1)
  }

  /** `val.map(el => transform(el, typ, getProps))` from element `i`, stopping at the first failure. */
  function Items(ctx: Ctx, dir: Direction, xs: seq<JVal>, s: Schema, i: nat): Result<seq<JVal>, Err>
    requires Valid(ctx.reg) && s.Arr? && i <= |xs|
    decreases Level(ctx.reg, s), s, 0, |xs| - i
  {
    if i == |xs| then Success([])
    else
      LevelOfParts(ctx.reg, s);
      match Transform(ctx, dir, xs[i], s.items, "", "")
      case Failure(err) => Failure(err)
      case Success(w) =>
        (match Items(ctx, dir, xs, s, i + 1)
         case Failure(err) => Failure(err)
         case Success(ws) => Success([w] + ws))
  }

  /**
    Declared property number `j` of the table: read from `v` by its lookup
    name (`undefined` when absent) and converted with the property name as
    key and the reference name as parent.
  */
  function DeclaredOf(ctx: Ctx, dir: Direction, v: JVal, s: Schema, refName: string, j: nat): Result<JVal, Err>
    requires Valid(ctx.reg) && s.Obj? && j < |Entries(s.props, dir)|
    decreases Level(ctx.reg, s), s, 0, 0
  {
    var e := Entries(s.props, dir)[j];
    LevelOfParts(ctx.reg, s);
    assert s.props[e.idx] in s.props;
    Transform(ctx, dir, Lookup(v, e.lookup), s.props[e.idx].typ, e.lookup, refName)
  }

  /** A converted value paired with the name it is written under. */
  function Named(name: string, t: Result<JVal, Err>): Result<Field, Err> {
    match t
    case Success(w) => Success(Field(name, w))
    case Failure(err) => Failure(err)
  }

  /** Each result paired with its name. */
  function NameAll(names: seq<string>, ts: seq<Result<JVal, Err>>): seq<Result<Field, Err>>
    requires |names| == |ts|
  {
    seq(|ts|, j requires 0 <= j < |ts| => Named(names[j], ts[j]))
  }

  /** The output names of a table, in order. */
  function Outs(es: seq<Entry>): seq<string> {
    seq(|es|, j requires 0 <= j < |es| => es[j].out)
  }

  /** The conversions of the declared properties, in table order. */
  function DeclaredResults(ctx: Ctx, dir: Direction, v: JVal, s: Schema, refName: string): seq<Result<JVal, Err>>
    requires Valid(ctx.reg) && s.Obj?
    decreases Level(ctx.reg, s), s, 0, 1
  {
    var es := Entries(s.props, dir);
    seq(|es|, j requires 0 <= j < |es| => DeclaredOf(ctx, dir, v, s, refName, j))
  }

  /** The declared properties under their output names, in table order, stopping at the first failure. */
  function DeclaredFields(ctx: Ctx, dir: Direction, v: JVal, s: Schema, refName: string): Result<seq<Field>, Err>
    requires Valid(ctx.reg) && s.Obj?
    decreases Level(ctx.reg, s), s, 0, 2
  {
    AllOk(NameAll(Outs(Entries(s.props, dir)), DeclaredResults(ctx, dir, v, s, refName)))
  }

  /** The own properties whose name the table does not declare, in order. */
  function Undeclared(fs: seq<Field>, es: seq<Entry>): seq<Field> {
    if |fs| == 0 then []
    else if Declares(es, fs[0].name) then Undeclared(fs[1..], es)
    else [fs[0]] + Undeclared(fs[1..], es)
  }

  /** An undeclared own property, converted with `additional`, its name as key and the reference name as parent. */
  function ExtraOf(ctx: Ctx, dir: Direction, f: Field, s: Schema, refName: string): Result<JVal, Err>
    requires Valid(ctx.reg) && s.Obj?
    decreases Level(ctx.reg, s), s, 0, 0
  {
    LevelOfParts(ctx.reg, s);
    Transform(ctx, dir, f.val, s.additional, f.name, refName)
  }

  /** The names of a field list, in order. */
  function NamesOf(fs: seq<Field>): seq<string> {
    seq(|fs|, j requires 0 <= j < |fs| => fs[j].name)
  }

  /** The conversions of the undeclared own properties of `v`, in order. */
  function ExtraResults(ctx: Ctx, dir: Direction, v: JVal, s: Schema, refName: string): seq<Result<JVal, Err>>
    requires Valid(ctx.reg) && s.Obj?
    decreases Level(ctx.reg, s), s, 0, 1
  {
    var xs := Undeclared(OwnFields(v), Entries(s.props, dir));
    seq(|xs|, j requires 0 <= j < |xs| => ExtraOf(ctx, dir, xs[j], s, refName))
  }

  /** The undeclared own properties of `v` under their own names, in order, stopping at the first failure. */
  function ExtraFields(ctx: Ctx, dir: Direction, v: JVal, s: Schema, refName: string): Result<seq<Field>, Err>
    requires Valid(ctx.reg) && s.Obj?
    decreases Level(ctx.reg, s), s, 0, 2
  {
    AllOk(NameAll(NamesOf(Undeclared(OwnFields(v), Entries(s.props, dir))), ExtraResults(ctx, dir, v, s, refName)))
  }

  /** `cast`: decode a parsed JSON value into the typed value. */
  function Cast(ctx: Ctx, v: JVal, s: Schema): Result<JVal, Err>
    requires Valid(ctx.reg)
  {
    Transform(ctx, Decode, v, s, "", "")
  }

  /** `uncast`: encode a typed value back into a JSON-ready value. */
  function Uncast(ctx: Ctx, v: JVal, s: Schema): Result<JVal, Err>
    requires Valid(ctx.reg)
  {
    Transform(ctx, Encode, v, s, "", "")
  }
}

=== FILE: engine_facts.dfy ===
/** What one call of the converter does, schema kind by schema kind. */
module EngineFacts {
  import opened Results
  import opened Json
  import opened Schemas
  import opened PropNames
  import opened Errors
  import opened Engine

  /** `"any"` passes everything through, `null` accepts only null, `false` nothing. */
  lemma DispatchPrecedence(ctx: Ctx, dir: Direction, v: JVal, key: string, parent: string)
    requires Valid(ctx.reg)
    ensures Transform(ctx, dir, v, Any, key, parent) == Success(v)
    ensures Transform(ctx, dir, v, Null, key, parent).Success? <==> v == JNull
    ensures Transform(ctx, dir, v, Null, key, parent).Success? ==> Transform(ctx, dir, v, Null, key, parent).value == JNull
    ensures Transform(ctx, dir, v, Never, key, parent) == Failure(Invalid(ExpSchema(Never), v, key, parent))
  {
  }

  /** The value shapes a primitive schema admits, stated per schema. */
  predicate PrimAdmits(s: Schema, v: JVal) {
    match s
    case Prim(PString) => v.JStr?
    case Prim(PNumber) => v.JNum?
    case Prim(PBoolean) => v.JBool?
    case Absent => v == Undefined
    case _ => false
  }

  /**
    A primitive schema succeeds exactly on values of its kind and returns
    them unchanged; the `undefined` schema accepts only a missing value.
  */
  lemma PrimitiveCheck(ctx: Ctx, dir: Direction, v: JVal, s: Schema, key: string, parent: string)
    requires Valid(ctx.reg) && (s.Prim? || s.Absent?)
    ensures var r := Transform(ctx, dir, v, s, key, parent);
      && (r.Success? <==> PrimAdmits(s, v))
      && (r.Success? ==> r.value == v)
      && (r.Failure? ==> r.error == Invalid(ExpSchema(s), v, key, parent))
  {
  }

  /**
    An enum returns a listed literal unchanged and rejects anything else,
    naming every allowed literal in the expected type.
  */
  lemma EnumMembership(ctx: Ctx, dir: Direction, v: JVal, cases: seq<string>, key: string, parent: string)
    requires Valid(ctx.reg)
    ensures var r := Transform(ctx, dir, v, Enum(cases), key, parent);
      && (r.Success? <==> exists i :: 0 <= i < |cases| && v == JStr(cases[i]))
      && (r.Success? ==> r.value == v)
      && (r.Failure? ==> r.error == Invalid(ExpLiterals(cases), v, key, parent))
      && (r.Failure? ==> PrettyTypeName(r.error.expected) == "one of [" + Join(cases, ", ") + "]")
  {
    if v.JStr? && v.str in cases {
      var i :| 0 <= i < |cases| && cases[i] == v.str;
    }
  }

  /**
    A date schema maps null to null, never parses a number (the number is
    rejected by the `typeof` test against `Date`, a function), rejects what
    the host cannot parse with expected type "Date", and otherwise yields
    the parsed date.
  */
  lemma DateCoercion(ctx: Ctx, dir: Direction, v: JVal, key: string, parent: string)
    requires Valid(ctx.reg)
    ensures var r := Transform(ctx, dir, v, DateT, key, parent);
      && (v == JNull ==> r == Success(JNull))
      && (v.JNum? ==> r == Failure(Invalid(ExpSchema(DateT), v, key, parent)))
      && PrettyTypeName(ExpSchema(DateT)) == "function"
      && (!v.JNum? && v != JNull && ctx.parseDate(v).None? ==>
            r == Failure(Invalid(ExpLiteral("Date"), v, key, parent)))
      && (!v.JNum? && v != JNull && ctx.parseDate(v).Some? ==>
            r == Success(JDate(ctx.parseDate(v).value)))
  {
  }

  // ----- unions -----

  lemma {:induction false} TryMembersFirst(ctx: Ctx, dir: Direction, v: JVal, s: Schema, i: nat)
    requires Valid(ctx.reg) && s.Union? && i <= |s.members|
    ensures var r := TryMembers(ctx, dir, v, s, i);
      && (r.None? <==> forall j :: i <= j < |s.members| ==> Transform(ctx, dir, v, s.members[j], "", "").Failure?)
      && (r.Some? ==>
            exists k :: i <= k < |s.members|
              && Transform(ctx, dir, v, s.members[k], "", "") == Success(r.value)
              && forall j :: i <= j < k ==> Transform(ctx, dir, v, s.members[j], "", "").Failure?)
    decreases |s.members| - i
  {
    if i < |s.members| {
      TryMembersFirst(ctx, dir, v, s, i + 1);
      if Transform(ctx, dir, v, s.members[i], "", "").Failure? {
        var r := TryMembers(ctx, dir, v, s, i);
        if r.Some? {
          var k :| i + 1 <= k < |s.members|
            && Transform(ctx, dir, v, s.members[k], "", "") == Success(r.value)
            && forall j :: i + 1 <= j < k ==> Transform(ctx, dir, v, s.members[j], "", "").Failure?;
          assert forall j :: i <= j < k ==> Transform(ctx, dir, v, s.members[j], "", "").Failure?;
        }
      }
    }
  }

  /**
    A union converts like its first member (left to right) that succeeds,
    each member tried with no key or parent; when every member fails the
    error lists the whole member list.
  */
  lemma UnionFirstWins(ctx: Ctx, dir: Direction, v: JVal, ms: seq<Schema>, key: string, parent: string)
    requires Valid(ctx.reg)
    ensures var r := Transform(ctx, dir, v, Union(ms), key, parent);
      && ((forall j :: 0 <= j < |ms| ==> Transform(ctx, dir, v, ms[j], "", "").Failure?) ==>
            r == Failure(Invalid(ExpMembers(ms), v, key, parent)))
      && (r.Success? ==>
            exists k :: 0 <= k < |ms|
              && Transform(ctx, dir, v, ms[k], "", "") == r
              && forall j :: 0 <= j < k ==> Transform(ctx, dir, v, ms[j], "", "").Failure?)
      && ((exists j :: 0 <= j < |ms| && Transform(ctx, dir, v, ms[j], "", "").Success?) ==> r.Success?)
  {
    TryMembersFirst(ctx, dir, v, Union(ms), 0);
  }

  // ----- arrays -----

  lemma {:induction false} ItemsSpec(ctx: Ctx, dir: Direction, xs: seq<JVal>, s: Schema, i: nat)
    requires Valid(ctx.reg) && s.Arr? && i <= |xs|
    ensures var r := Items(ctx, dir, xs, s, i);
      && (r.Success? <==> forall j :: i <= j < |xs| ==> Transform(ctx, dir, xs[j], s.items, "", "").Success?)
      && (r.Success? ==>
            && |r.value| == |xs| - i
            && forall j :: 0 <= j < |r.value| ==> Transform(ctx, dir, xs[i + j], s.items, "", "") == Success(r.value[j]))
      && (r.Failure? ==>
            exists k :: i <= k < |xs|
              && Transform(ctx, dir, xs[k], s.items, "", "") == Failure(r.error)
              && forall j :: i <= j < k ==> Transform(ctx, dir, xs[j], s.items, "", "").Success?)
    decreases |xs| - i
  {
    if i < |xs| {
      ItemsSpec(ctx, dir, xs, s, i + 1);
      var r := Items(ctx, dir, xs, s, i);
      var t := Transform(ctx, dir, xs[i], s.items, "", "");
      if t.Success? {
        var rest := Items(ctx, dir, xs, s, i + 1);
        if rest.Success? {
          assert r.value == [t.value] + rest.value;
          forall j | 0 <= j < |r.value|
            ensures Transform(ctx, dir, xs[i + j], s.items, "", "") == Success(r.value[j])
          {
            if j > 0 {
              assert r.value[j] == rest.value[j - 1];
              assert xs[i + j] == xs[(i + 1) + (j - 1)];
            }
          }
        } else {
          var k :| i + 1 <= k < |xs|
            && Transform(ctx, dir, xs[k], s.items, "", "") == Failure(rest.error)
            && forall j :: i + 1 <= j < k ==> Transform(ctx, dir, xs[j], s.items, "", "").Success?;
          assert forall j :: i <= j < k ==> Transform(ctx, dir, xs[j], s.items, "", "").Success?;
        }
      }
    }
  }

  /**
    An array schema rejects a non-array with expected type "array"; on an
    array it converts element by element with no key or parent, keeping
    length and order, and the first failing element's error aborts the call.
  */
  lemma ArrayElementwise(ctx: Ctx, dir: Direction, v: JVal, e: Schema, key: string, parent: string)
    requires Valid(ctx.reg)
    ensures var r := Transform(ctx, dir, v, Arr(e), key, parent);
      && (!v.JArr? ==> r == Failure(Invalid(ExpLiteral("array"), v, key, parent)))
      && (v.JArr? ==> (r.Success? <==> forall j :: 0 <= j < |v.elems| ==> Transform(ctx, dir, v.elems[j], e, "", "").Success?))
      && (v.JArr? && r.Success? ==>
            && r.value.JArr? && |r.value.elems| == |v.elems|
            && forall j :: 0 <= j < |v.elems| ==> Transform(ctx, dir, v.elems[j], e, "", "") == Success(r.value.elems[j]))
      && (v.JArr? && r.Failure? ==>
            exists k :: 0 <= k < |v.elems|
              && Transform(ctx, dir, v.elems[k], e, "", "") == r
              && forall j :: 0 <= j < k ==> Transform(ctx, dir, v.elems[j], e, "", "").Success?)
  {
    if v.JArr? {
      ItemsSpec(ctx, dir, v.elems, Arr(e), 0);
    }
  }
}

=== FILE: errors.dfy ===
/**
  What the converter throws (`invalidValue`) and how the message reads
  (`prettyTypeName`). The rendering of the offending value (`JSON.stringify`)
  is a parameter of the message.
*/
module Errors {
  import opened Results
  import opened Json
  import opened Schemas

  /** The `typ` argument handed to `invalidValue`. */
  datatype Expected =
    | ExpSchema(schema: Schema)        // the schema value itself: null, false, a primitive
    | ExpMembers(members: seq<Schema>) // a union's member list
    | ExpLiterals(cases: seq<string>)  // an enum's cases, each wrapped by l(...)
    | ExpLiteral(text: string)         // l("array"), l("Date"), l(ref || "object")
    | ExpHost(kind: JsType)            // no schema at all: a method or `Object.prototype` read from the registry

  datatype Err =
    | Invalid(expected: Expected, value: JVal, key: string, parent: string)
    | NullDereference // the TypeError of reading `.ref` of a registry entry that is null

  /** `xs.join(sep)`. */
  function Join(xs: seq<string>, sep: string): string {
    if |xs| == 0 then ""
    else if |xs| == 1 then xs[0]
    else xs[0] + sep + Join(xs[1..], sep)
  }

  /** `prettyTypeName` of one schema value, with the null schema named "null". */
  function Describe(s: Schema): string {
    match s
    case Null => "null"
    case Enum(cases) => "one of [" + Join(seq(|cases|, _ => "string"), ", ") + "]"
    case _ => TypeName(SchemaType(s))
  }

  function DescribeAll(ms: seq<Schema>): (ds: seq<string>)
    ensures |ds| == |ms| && forall i :: 0 <= i < |ms| ==> ds[i] == Describe(ms[i])
  {
    seq(|ms|, i requires 0 <= i < |ms| => Describe(ms[i]))
  }

  /** Whether a union's member list prints as "an optional X". */
  predicate IsOptional(ms: seq<Schema>) {
    |ms| == 2 && ms[0] == Absent
  }

  /** `prettyTypeName(typ)`, defined for every expected type. */
  function PrettyTypeName(e: Expected): string {
    match e
    case ExpSchema(s) => Describe(s)
    case ExpMembers(ms) =>
      if IsOptional(ms) then "an optional " + Describe(ms[1])
      else "one of [" + Join(DescribeAll(ms), ", ") + "]"
    case ExpLiterals(cases) => "one of [" + Join(cases, ", ") + "]"
    case ExpLiteral(t) => t
    case ExpHost(t) => TypeName(t)
  }

  /**
    `prettyTypeName` as the source writes it: for the null schema
    `typeof typ === "object"` holds and `typ.literal` then reads a property of
    null, which throws before any message exists (None).
  */
  function PrettyTypeNameAsWritten(e: Expected): Option<string> {
    match e
    case ExpSchema(s) => if s == Null then None else Some(Describe(s))
    case ExpMembers(ms) =>
      if IsOptional(ms) then (if ms[1] == Null then None else Some("an optional " + Describe(ms[1])))
      else if Null in ms then None
      else Some("one of [" + Join(DescribeAll(ms), ", ") + "]")
    case _ => Some(PrettyTypeName(e))
  }

  const Prefix := "Invalid value"

  /** The `for key "<key>"` clause. */
  function KeyText(key: string): string {
    if key == "" then "" else " for key \"" + key + "\""
  }

  /** The `on <parent>` clause. */
  function ParentText(parent: string): string {
    if parent == "" then "" else " on " + parent
  }

  /** The text `invalidValue` throws; `got` is the rendering of the offending value. */
  function Message(e: Expected, key: string, parent: string, got: string): string {
    Header(key, parent) + Tail(PrettyTypeName(e), got)
  }

  /** `Invalid value${keyText}${parentText}`. */
  function Header(key: string, parent: string): string {
    Prefix + KeyText(key) + ParentText(parent)
  }

  /** `. Expected ${prettyTyp} but got ${rendered}`. */
  function Tail(expected: string, got: string): string {
    ". Expected " + expected + " but got " + got
  }

  /** The message as written: absent whenever the expected type cannot be printed. */
  function MessageAsWritten(e: Expected, key: string, parent: string, got: string): Option<string> {
    match PrettyTypeNameAsWritten(e)
    case None => None
    case Some(t) => Some(Header(key, parent) + Tail(t, got))
  }

  predicate StartsWith(s: string, p: string) {
    |p| <= |s| && s[..|p|] == p
  }

  predicate EndsWith(s: string, p: string) {
    |p| <= |s| && s[|s| - |p|..] == p
  }

  /**
    The key clause is present exactly when the key is non-empty and then
    quotes the key; the parent clause is present exactly when the parent is
    non-empty (read after the key clause) and then names it; the message
    always ends with the printed expected type and the rendered value.
  */
  lemma MessageClauses(e: Expected, key: string, parent: string, got: string)
    ensures var m := Message(e, key, parent, got);
      && StartsWith(m, Prefix)
      && (key != "" <==> StartsWith(m, Prefix + " for key \""))
      && (key != "" ==> StartsWith(m, Prefix + " for key \"" + key + "\""))
      && (parent != "" <==> StartsWith(m[|Prefix + KeyText(key)|..], " on "))
      && (parent != "" ==> StartsWith(m[|Prefix + KeyText(key)|..], " on " + parent))
      && EndsWith(m, ". Expected " + PrettyTypeName(e) + " but got " + got)
  {
    HeaderClauses(key, parent, PrettyTypeName(e), got);
    HeaderTexts(key, parent, PrettyTypeName(e), got);
  }

  lemma HeaderClauses(key: string, parent: string, x: string, got: string)
    ensures var m := Header(key, parent) + Tail(x, got);
      && StartsWith(m, Prefix)
      && (key != "" <==> StartsWith(m, Prefix + " for key \""))
      && (parent != "" <==> StartsWith(m[|Prefix + KeyText(key)|..], " on "))
      && EndsWith(m, " but got " + got)
  {
    var pk := Prefix + KeyText(key);
    var tail := Tail(x, got);
    var rest := ParentText(parent) + tail;
    var m := Header(key, parent) + tail;
    assert m == pk + rest by {
      Assoc(pk, ParentText(parent), tail);
    }
    assert |rest| >= 2 && rest[0] in " ." && (rest[0] == ' ' ==> rest[1] == 'o') && (parent != "" <==> StartsWith(rest, " on ")) by {
      GotClause(x, got);
      ParentClause(parent, tail);
    }
    assert key != "" <==> StartsWith(pk + rest, Prefix + " for key \"") by {
      KeyClause(key, rest);
    }
    assert StartsWith(m, Prefix) by {
      Split(Prefix, KeyText(key) + rest);
      Assoc(Prefix, KeyText(key), rest);
    }
    assert m[|pk|..] == rest by {
      Split(pk, rest);
    }
    assert EndsWith(m, " but got " + got) by {
      GotClause(x, got);
      SuffixOfSuffix(Header(key, parent), tail, " but got " + got);
    }
  }

  /** The clauses that are present carry the key, the parent and the expected type. */
  lemma HeaderTexts(key: string, parent: string, x: string, got: string)
    ensures var m := Header(key, parent) + Tail(x, got);
      && (key != "" ==> StartsWith(m, Prefix + " for key \"" + key + "\""))
      && (parent != "" ==> |Prefix + KeyText(key)| <= |m| && StartsWith(m[|Prefix + KeyText(key)|..], " on " + parent))
      && EndsWith(m, ". Expected " + x + " but got " + got)
  {
    var pk := Prefix + KeyText(key);
    var tail := Tail(x, got);
    var rest := ParentText(parent) + tail;
    var m := Header(key, parent) + tail;
    assert m == pk + rest by {
      Assoc(pk, ParentText(parent), tail);
    }
    Split(pk, rest);
    assert EndsWith(m, tail) by {
      Split(Header(key, parent), tail);
    }
    if key != "" {
      assert Prefix + " for key \"" + key + "\"" == pk;
    }
    if parent != "" {
      assert rest == (" on " + parent) + tail;
      Split(" on " + parent, tail);
    }
  }

  lemma Assoc(a: string, b: string, c: string)
    ensures (a + b) + c == a + (b + c)
  {
  }

  lemma KeyClause(key: string, rest: string)
    requires |rest| >= 2 && rest[0] in " ." && (rest[0] == ' ' ==> rest[1] == 'o')
    ensures key != "" <==> StartsWith(Prefix + KeyText(key) + rest, Prefix + " for key \"")
  {
    var m := Prefix + KeyText(key) + rest;
    Split(Prefix, KeyText(key) + rest);
    Assoc(Prefix, KeyText(key), rest);
    if key != "" {
      Split(Prefix + " for key \"", key + "\"" + rest);
      assert m == (Prefix + " for key \"") + (key + "\"" + rest);
    } else {
      assert m == Prefix + rest;
      assert m[13] == rest[0] && m[14] == rest[1];
    }
  }

  lemma ParentClause(parent: string, tail: string)
    requires |tail| >= 2 && tail[0] == '.'
    ensures var rest := ParentText(parent) + tail;
      && |rest| >= 2 && rest[0] in " ." && (rest[0] == ' ' ==> rest[1] == 'o')
      && (parent != "" <==> StartsWith(rest, " on "))
  {
    if parent != "" {
      Split(" on ", parent + tail);
      assert ParentText(parent) + tail == " on " + (parent + tail);
    }
  }

  lemma GotClause(x: string, got: string)
    ensures |Tail(x, got)| >= 2 && Tail(x, got)[0] == '.'
    ensures EndsWith(Tail(x, got), " but got " + got)
  {
    Split(". Expected " + x, " but got " + got);
    assert Tail(x, got) == (". Expected " + x) + (" but got " + got);
  }

  lemma SuffixOfSuffix(a: string, b: string, c: string)
    requires EndsWith(b, c)
    ensures EndsWith(a + b, c)
  {
    assert (a + b)[|a + b| - |c|..] == b[|b| - |c|..];
  }

  lemma Split(a: string, b: string)
    ensures StartsWith(a + b, a) && (a + b)[|a|..] == b && EndsWith(a + b, b)
  {
    assert (a + b)[..|a|] == a;
  }

  /**
    Where the source's message exists it is the corrected one; it is missing
    exactly when the null schema is among the printed types.
  */
  lemma AsWrittenAgrees(e: Expected, key: string, parent: string, got: string)
    ensures MessageAsWritten(e, key, parent, got).Some? ==>
      MessageAsWritten(e, key, parent, got).value == Message(e, key, parent, got)
    ensures MessageAsWritten(e, key, parent, got).None? <==>
      || e == ExpSchema(Null)
      || (e.ExpMembers? && IsOptional(e.members) && e.members[1] == Null)
      || (e.ExpMembers? && !IsOptional(e.members) && Null in e.members)
  {
  }

  /**
    The nullable string of the source's job schema, `u(null, "")`: when a
    value matches neither member the source throws a TypeError instead of a
    validation message; the corrected message names both members.
  */
  lemma NullableStringMessage(key: string, parent: string, got: string)
    ensures MessageAsWritten(ExpMembers([Null, Prim(PString)]), key, parent, got).None?
    ensures PrettyTypeName(ExpMembers([Null, Prim(PString)])) == "one of [null, string]"
    ensures EndsWith(Message(ExpMembers([Null, Prim(PString)]), key, parent, got),
      ". Expected " + "one of [null, string]" + " but got " + got)
  {
    assert DescribeAll([Null, Prim(PString)]) == ["null", "string"];
    ExpectedNamed(ExpMembers([Null, Prim(PString)]), "one of [null, string]", key, parent, got);
  }

  /** Once the expected type is known to print as `t`, the message ends with `t` and the rendered value. */
  lemma ExpectedNamed(e: Expected, t: string, key: string, parent: string, got: string)
    requires PrettyTypeName(e) == t
    ensures EndsWith(Message(e, key, parent, got), ". Expected " + t + " but got " + got)
  {
    HeaderTexts(key, parent, t, got);
  }
}

=== FILE: json.dfy ===
/**
  The already-parsed value tree the converter walks: what `JSON.parse` yields,
  plus `undefined` (a missing key) and `Date` objects (what decoding produces).
*/
module Json {
  import opened Results

  /** Numbers are abstract: the converter only ever asks for their `typeof`. */
  datatype JVal =
    | Undefined
    | JNull
    | JBool(b: bool)
    | JNum(n: int)
    | JStr(str: string)
    | JArr(elems: seq<JVal>)
    | JObj(fields: seq<Field>)
    | JDate(time: int)

  /** One own property of an object, in enumeration order. */
  datatype Field = Field(name: string, val: JVal)

  /** The answers JavaScript's `typeof` can give for the values involved here. */
  datatype JsType = TUndefined | TObject | TBoolean | TNumber | TString | TFunction

  /** `typeof v`: null, arrays, objects and dates are all "object". */
  function TypeOf(v: JVal): JsType {
    match v
    case Undefined => TUndefined
    case JBool(_) => TBoolean
    case JNum(_) => TNumber
    case JStr(_) => TString
    case _ => TObject
  }

  /** The string `typeof` returns. */
  function TypeName(t: JsType): string {
    match t
    case TUndefined => "undefined"
    case TObject => "object"
    case TBoolean => "boolean"
    case TNumber => "number"
    case TString => "string"
    case TFunction => "function"
  }

  /** `val !== null && typeof val === "object" && !Array.isArray(val)`. */
  predicate IsObjectLike(v: JVal) {
    v.JObj? || v.JDate?
  }

  /** `Object.getOwnPropertyNames(v)` paired with the values; a date has none. */
  function OwnFields(v: JVal): seq<Field> {
    if v.JObj? then v.fields else []
  }

  /** The property names of a field list. */
  function Names(fs: seq<Field>): set<string> {
    set f | f in fs :: f.name
  }

  lemma NamesCons(f: Field, fs: seq<Field>)
    ensures Names([f] + fs) == {f.name} + Names(fs)
  {
    assert forall g :: g in [f] + fs <==> g == f || g in fs;
  }

  /** The first field of a non-empty list is one of its fields. */
  lemma HeadIn(xs: seq<Field>)
    ensures |xs| > 0 ==> xs[0] in xs
  {
  }

  /** The first field of a list, when it is one of `fs`, is named in `fs`. */
  lemma HeadNamed(xs: seq<Field>, fs: seq<Field>)
    ensures |xs| > 0 && xs[0] in fs ==> xs[0].name in Names(fs)
  {
  }

  /** The value stored under `k`, if `k` is an own property. */
  function Get(fs: seq<Field>, k: string): (r: Option<JVal>)
    ensures r.Some? <==> k in Names(fs)
    ensures r.Some? ==> Field(k, r.value) in fs
  {
    if |fs| == 0 then None
    else if fs[0].name == k then Some(fs[0].val)
    else Get(fs[1..], k)
  }

  /** `hasOwnProperty(v, k) ? v[k] : undefined`. */
  function Lookup(v: JVal, k: string): JVal {
    Get(OwnFields(v), k).GetOr(Undefined)
  }

  /** `result[k] = x`: overwrite the property in place, or append it. */
  function Put(fs: seq<Field>, k: string, x: JVal): (r: seq<Field>)
    ensures Names(r) == Names(fs) + {k}
    ensures k !in Names(fs) ==> r == fs + [Field(k, x)]
  {
    if |fs| == 0 then [Field(k, x)]
    else if fs[0].name == k then [Field(k, x)] + fs[1..]
    else
      var rest := Put(fs[1..], k, x);
      NamesCons(fs[0], fs[1..]);
      NamesCons(fs[0], rest);
      [fs[0]] + rest
  }

  /** Reading back what `Put` stored, and nothing else disturbed. */
  lemma {:induction false} GetPut(fs: seq<Field>, k: string, x: JVal, k': string)
    ensures Get(Put(fs, k, x), k') == if k' == k then Some(x) else Get(fs, k')
    decreases |fs|
  {
    if |fs| > 0 && fs[0].name != k {
      GetPut(fs[1..], k, x, k');
      assert Put(fs, k, x)[1..] == Put(fs[1..], k, x);
    }
  }

  /** Assign each field of `xs` in order. */
  function PutAll(fs: seq<Field>, xs: seq<Field>): seq<Field>
    decreases |xs|
  {
    if |xs| == 0 then fs else PutAll(Put(fs, xs[0].name, xs[0].val), xs[1..])
  }

  /** No property name occurs twice. */
  predicate UniqueNames(fs: seq<Field>) {
    forall i, j :: 0 <= i < j < |fs| ==> fs[i].name != fs[j].name
  }

  lemma {:induction false} NamesPutAll(fs: seq<Field>, xs: seq<Field>)
    ensures Names(PutAll(fs, xs)) == Names(fs) + Names(xs)
    decreases |xs|
  {
    if |xs| > 0 {
      NamesPutAll(Put(fs, xs[0].name, xs[0].val), xs[1..]);
      NamesCons(xs[0], xs[1..]);
      assert xs == [xs[0]] + xs[1..];
    }
  }

  /** A name no assignment touches reads as before. */
  lemma {:induction false} GetPutAllUntouched(fs: seq<Field>, xs: seq<Field>, k: string)
    requires k !in Names(xs)
    ensures Get(PutAll(fs, xs), k) == Get(fs, k)
    decreases |xs|
  {
    if |xs| > 0 {
      assert xs[0] in xs;
      assert Names(xs[1..]) <= Names(xs) by {
        forall f | f in xs[1..] ensures f in xs { }
      }
      GetPut(fs, xs[0].name, xs[0].val, k);
      GetPutAllUntouched(Put(fs, xs[0].name, xs[0].val), xs[1..], k);
    }
  }

  /** The last assignment to a name is the one that reads back. */
  lemma {:induction false} GetPutAllLast(fs: seq<Field>, xs: seq<Field>, i: nat)
    requires i < |xs|
    requires forall j :: i < j < |xs| ==> xs[j].name != xs[i].name
    ensures Get(PutAll(fs, xs), xs[i].name) == Some(xs[i].val)
    decreases i
  {
    var k := xs[i].name;
    if i == 0 {
      assert k !in Names(xs[1..]) by {
        forall f | f in xs[1..] ensures f.name != k {
          var j :| 0 <= j < |xs[1..]| && xs[1..][j] == f;
          assert xs[j + 1] == f;
        }
      }
      GetPut(fs, k, xs[0].val, k);
      GetPutAllUntouched(Put(fs, k, xs[0].val), xs[1..], k);
    } else {
      assert xs[1..][i - 1] == xs[i];
      GetPutAllLast(Put(fs, xs[0].name, xs[0].val), xs[1..], i - 1);
    }
  }

  /** Dropping the first property of an object without repeated names. */
  lemma UniqueTail(fs: seq<Field>)
    requires UniqueNames(fs) && |fs| > 0
    ensures UniqueNames(fs[1..]) && fs[0].name !in Names(fs[1..])
  {
    assert forall a, b :: 0 <= a < b < |fs[1..]| ==> fs[1..][a] == fs[a + 1] && fs[1..][b] == fs[b + 1];
    forall f | f in fs[1..] ensures f.name != fs[0].name {
      var j :| 0 <= j < |fs[1..]| && fs[1..][j] == f;
      assert fs[j + 1] == f;
    }
  }

  /** Adding a property in front under a new name. */
  lemma UniqueCons(f: Field, fs: seq<Field>)
    requires UniqueNames(fs) && f.name !in Names(fs)
    ensures UniqueNames([f] + fs)
  {
    var r := [f] + fs;
    forall i, j | 0 <= i < j < |r| ensures r[i].name != r[j].name {
      assert r[j] == fs[j - 1] && r[j] in fs;
      if i > 0 {
        assert r[i] == fs[i - 1];
      }
    }
  }

  /** Assignment never repeats a name. */
  lemma {:induction false} PutUnique(fs: seq<Field>, k: string, x: JVal)
    requires UniqueNames(fs)
    ensures UniqueNames(Put(fs, k, x))
    decreases |fs|
  {
    if |fs| > 0 {
      UniqueTail(fs);
      if fs[0].name == k {
        assert Put(fs, k, x) == [Field(k, x)] + fs[1..];
        UniqueCons(Field(k, x), fs[1..]);
      } else {
        var rest := Put(fs[1..], k, x);
        PutUnique(fs[1..], k, x);
        assert Put(fs, k, x) == [fs[0]] + rest;
        UniqueCons(fs[0], rest);
      }
    }
  }

  /** A sequence of assignments into an object without repeated names leaves none repeated. */
  lemma {:induction false} PutAllUnique(fs: seq<Field>, xs: seq<Field>)
    requires UniqueNames(fs)
    ensures UniqueNames(PutAll(fs, xs))
    decreases |xs|
  {
    if |xs| > 0 {
      PutUnique(fs, xs[0].name, xs[0].val);
      PutAllUnique(Put(fs, xs[0].name, xs[0].val), xs[1..]);
    }
  }

  /** In an object without repeated names every own property reads back its own value. */
  lemma {:induction false} GetUnique(fs: seq<Field>, f: Field)
    requires UniqueNames(fs) && f in fs
    ensures Get(fs, f.name) == Some(f.val)
    decreases |fs|
  {
    if fs[0] != f {
      var j :| 0 <= j < |fs| && fs[j] == f;
      assert j > 0 && fs[0].name != f.name;
      assert fs[1..][j - 1] == f;
      UniqueTail(fs);
      GetUnique(fs[1..], f);
    }
  }
}

=== FILE: object_facts.dfy ===
/** What the converter does with an object schema (`transformObject`). */
module ObjectFacts {
  import opened Results
  import opened Json
  import opened Schemas
  import opened PropNames
  import opened Errors
  import opened Engine

  /** The own properties of `v` the table does not declare. */
  function Extras(v: JVal, s: Schema, dir: Direction): seq<Field>
    requires s.Obj?
  {
    Undeclared(OwnFields(v), Entries(s.props, dir))
  }

  /** The names written for the declared properties. */
  function OutNames(es: seq<Entry>): set<string> {
    set e | e in es :: e.out
  }

  /** The filter keeps exactly the undeclared properties, and repeats no name the input did not repeat. */
  lemma {:induction false} UndeclaredSpec(fs: seq<Field>, es: seq<Entry>)
    ensures forall f :: f in Undeclared(fs, es) <==> f in fs && !Declares(es, f.name)
    ensures UniqueNames(fs) ==> UniqueNames(Undeclared(fs, es))
  {
    if |fs| > 0 {
      UndeclaredSpec(fs[1..], es);
      assert forall f :: f in fs <==> f == fs[0] || f in fs[1..];
      var rest := Undeclared(fs[1..], es);
      if UniqueNames(fs) && !Declares(es, fs[0].name) {
        assert UniqueNames(fs[1..]) by {
          forall a, b | 0 <= a < b < |fs[1..]| ensures fs[1..][a].name != fs[1..][b].name {
            assert fs[1..][a] == fs[a + 1] && fs[1..][b] == fs[b + 1];
          }
        }
        var r := [fs[0]] + rest;
        forall a, b | 0 <= a < b < |r| ensures r[a].name != r[b].name {
          if a == 0 {
            assert r[b] in fs[1..];
            var m :| 0 <= m < |fs[1..]| && fs[1..][m] == r[b];
            assert fs[m + 1] == r[b];
          } else {
            assert r[a] == rest[a - 1] && r[b] == rest[b - 1];
          }
        }
      }
    }
  }

  /** A run of named conversions: what `AllOk` says, read back through `Named`. */
  lemma RunOfFields(names: seq<string>, ts: seq<Result<JVal, Err>>)
    requires |names| == |ts|
    ensures AllOk(NameAll(names, ts)).Success? <==> forall j :: 0 <= j < |ts| ==> ts[j].Success?
    ensures var r := AllOk(NameAll(names, ts));
      r.Success? ==>
        && |r.value| == |ts|
        && forall j :: 0 <= j < |ts| ==> r.value[j].name == names[j] && ts[j] == Success(r.value[j].val)
    ensures var r := AllOk(NameAll(names, ts));
      r.Failure? ==>
        exists k :: 0 <= k < |ts| && ts[k] == Failure(r.error)
          && forall j :: 0 <= j < k ==> ts[j].Success?
  {
    var rs := NameAll(names, ts);
    AllOkSuccess(rs);
    AllOkFailure(rs);
    assert forall j :: 0 <= j < |rs| ==> rs[j] == Named(names[j], ts[j]);
    var r := AllOk(rs);
    if r.Failure? {
      var k :| 0 <= k < |rs| && rs[k] == Failure(r.error) && forall j :: 0 <= j < k ==> rs[j].Success?;
      assert ts[k] == Failure(r.error);
    }
  }

  /**
    `result[prop.key] = transform(v, prop.typ, getProps, key, ref)`: entry `j`
    of the table reads its lookup name from the value (`undefined` when
    absent), converts it with that property's schema, the lookup name as key
    and the reference name as parent.
  */
  lemma DeclaredResultsAt(ctx: Ctx, dir: Direction, v: JVal, s: Schema, refName: string, j: nat)
    requires Valid(ctx.reg) && s.Obj? && j < |Entries(s.props, dir)|
    ensures var es := Entries(s.props, dir);
      && |DeclaredResults(ctx, dir, v, s, refName)| == |es|
      && DeclaredResults(ctx, dir, v, s, refName)[j]
         == Transform(ctx, dir, Lookup(v, es[j].lookup), s.props[es[j].idx].typ, es[j].lookup, refName)
  {
  }

  /**
    `result[key] = transform(val[key], additional, getProps, key, ref)`:
    undeclared property `j` is converted with `additional`, its own name as
    key and the reference name as parent.
  */
  lemma ExtraResultsAt(ctx: Ctx, dir: Direction, v: JVal, s: Schema, refName: string, j: nat)
    requires Valid(ctx.reg) && s.Obj? && j < |Extras(v, s, dir)|
    ensures var xs := Extras(v, s, dir);
      && |ExtraResults(ctx, dir, v, s, refName)| == |xs|
      && ExtraResults(ctx, dir, v, s, refName)[j] == Transform(ctx, dir, xs[j].val, s.additional, xs[j].name, refName)
  {
  }

  /** The declared properties all convert exactly when each of them does. */
  lemma DeclaredFieldsOk(ctx: Ctx, dir: Direction, v: JVal, s: Schema, refName: string)
    requires Valid(ctx.reg) && s.Obj?
    ensures var ts := DeclaredResults(ctx, dir, v, s, refName);
      DeclaredFields(ctx, dir, v, s, refName).Success? <==> forall j :: 0 <= j < |ts| ==> ts[j].Success?
  {
    assert |Outs(Entries(s.props, dir))| == |DeclaredResults(ctx, dir, v, s, refName)|;
    assert DeclaredFields(ctx, dir, v, s, refName) == AllOk(NameAll(Outs(Entries(s.props, dir)), DeclaredResults(ctx, dir, v, s, refName)));
    RunOfFields(Outs(Entries(s.props, dir)), DeclaredResults(ctx, dir, v, s, refName));
  }

  /** On success, entry `j` of the table yields field `j`: its output name and its converted value. */
  lemma DeclaredFieldsValues(ctx: Ctx, dir: Direction, v: JVal, s: Schema, refName: string)
    requires Valid(ctx.reg) && s.Obj?
    ensures var es := Entries(s.props, dir);
      var ts := DeclaredResults(ctx, dir, v, s, refName);
      var r := DeclaredFields(ctx, dir, v, s, refName);
      r.Success? ==>
        && |r.value| == |es| == |ts|
        && forall j :: 0 <= j < |es| ==> r.value[j].name == es[j].out && ts[j] == Success(r.value[j].val)
  {
    var es := Entries(s.props, dir);
    assert |Outs(es)| == |DeclaredResults(ctx, dir, v, s, refName)|;
    assert DeclaredFields(ctx, dir, v, s, refName) == AllOk(NameAll(Outs(es), DeclaredResults(ctx, dir, v, s, refName)));
    RunOfFields(Outs(es), DeclaredResults(ctx, dir, v, s, refName));
    assert forall j :: 0 <= j < |es| ==> Outs(es)[j] == es[j].out;
  }

  /** On failure, the error is that of the first declared property that fails. */
  lemma DeclaredFieldsError(ctx: Ctx, dir: Direction, v: JVal, s: Schema, refName: string)
    requires Valid(ctx.reg) && s.Obj?
    ensures var ts := DeclaredResults(ctx, dir, v, s, refName);
      var r := DeclaredFields(ctx, dir, v, s, refName);
      r.Failure? ==>
        exists k :: 0 <= k < |ts| && ts[k] == Failure(r.error) && forall j :: 0 <= j < k ==> ts[j].Success?
  {
    assert |Outs(Entries(s.props, dir))| == |DeclaredResults(ctx, dir, v, s, refName)|;
    assert DeclaredFields(ctx, dir, v, s, refName) == AllOk(NameAll(Outs(Entries(s.props, dir)), DeclaredResults(ctx, dir, v, s, refName)));
    RunOfFields(Outs(Entries(s.props, dir)), DeclaredResults(ctx, dir, v, s, refName));
  }

  /** The undeclared properties all convert exactly when each of them does. */
  lemma ExtraFieldsOk(ctx: Ctx, dir: Direction, v: JVal, s: Schema, refName: string)
    requires Valid(ctx.reg) && s.Obj?
    ensures var us := ExtraResults(ctx, dir, v, s, refName);
      ExtraFields(ctx, dir, v, s, refName).Success? <==> forall j :: 0 <= j < |us| ==> us[j].Success?
  {
    var xs := Extras(v, s, dir);
    assert |NamesOf(xs)| == |ExtraResults(ctx, dir, v, s, refName)|;
    assert ExtraFields(ctx, dir, v, s, refName) == AllOk(NameAll(NamesOf(xs), ExtraResults(ctx, dir, v, s, refName)));
    RunOfFields(NamesOf(xs), ExtraResults(ctx, dir, v, s, refName));
  }

  /** On success, undeclared property `j` yields field `j`: its own name and its converted value. */
  lemma ExtraFieldsValues(ctx: Ctx, dir: Direction, v: JVal, s: Schema, refName: string)
    requires Valid(ctx.reg) && s.Obj?
    ensures var xs := Extras(v, s, dir);
      var us := ExtraResults(ctx, dir, v, s, refName);
      var r := ExtraFields(ctx, dir, v, s, refName);
      r.Success? ==>
        && |r.value| == |xs| == |us|
        && forall j :: 0 <= j < |xs| ==> r.value[j].name == xs[j].name && us[j] == Success(r.value[j].val)
  {
    var xs := Extras(v, s, dir);
    assert |NamesOf(xs)| == |ExtraResults(ctx, dir, v, s, refName)|;
    assert ExtraFields(ctx, dir, v, s, refName) == AllOk(NameAll(NamesOf(xs), ExtraResults(ctx, dir, v, s, refName)));
    RunOfFields(NamesOf(xs), ExtraResults(ctx, dir, v, s, refName));
    assert forall j :: 0 <= j < |xs| ==> NamesOf(xs)[j] == xs[j].name;
  }

  /** On failure, the error is that of the first undeclared property that fails. */
  lemma ExtraFieldsError(ctx: Ctx, dir: Direction, v: JVal, s: Schema, refName: string)
    requires Valid(ctx.reg) && s.Obj?
    ensures var us := ExtraResults(ctx, dir, v, s, refName);
      var r := ExtraFields(ctx, dir, v, s, refName);
      r.Failure? ==>
        exists k :: 0 <= k < |us| && us[k] == Failure(r.error) && forall j :: 0 <= j < k ==> us[j].Success?
  {
    var xs := Extras(v, s, dir);
    assert |NamesOf(xs)| == |ExtraResults(ctx, dir, v, s, refName)|;
    assert ExtraFields(ctx, dir, v, s, refName) == AllOk(NameAll(NamesOf(xs), ExtraResults(ctx, dir, v, s, refName)));
    RunOfFields(NamesOf(xs), ExtraResults(ctx, dir, v, s, refName));
  }

  /**
    `transformObject`'s shape test: null, arrays and anything that is not an
    object are refused with the reference name, or "object" when no
    reference led here.
  */
  lemma ObjectShape(ctx: Ctx, dir: Direction, v: JVal, s: Schema, refName: string, key: string, parent: string)
    requires Valid(ctx.reg) && s.Obj? && !IsObjectLike(v)
    ensures Resolved(ctx, dir, v, s, refName, key, parent)
      == Failure(Invalid(ExpLiteral(if refName == "" then "object" else refName), v, key, parent))
  {
  }

  /**
    An object (or date) converts exactly when every declared property and
    every undeclared own property converts.
  */
  lemma ObjectAccepts(ctx: Ctx, dir: Direction, v: JVal, s: Schema, refName: string, key: string, parent: string)
    requires Valid(ctx.reg) && s.Obj? && IsObjectLike(v)
    ensures var ts := DeclaredResults(ctx, dir, v, s, refName);
      var us := ExtraResults(ctx, dir, v, s, refName);
      Resolved(ctx, dir, v, s, refName, key, parent).Success? <==>
        && (forall j :: 0 <= j < |ts| ==> ts[j].Success?)
        && (forall j :: 0 <= j < |us| ==> us[j].Success?)
  {
    ObjectStep(ctx, dir, v, s, refName, key, parent);
    DeclaredFieldsOk(ctx, dir, v, s, refName);
    ExtraFieldsOk(ctx, dir, v, s, refName);
  }

  /** The assembled object names exactly the fields assigned. */
  lemma ObjectOfNames(declared: Result<seq<Field>, Err>, extra: Result<seq<Field>, Err>)
    ensures ObjectOf(declared, extra).Success? ==>
      && ObjectOf(declared, extra).value.JObj?
      && Names(ObjectOf(declared, extra).value.fields) == Names(declared.value) + Names(extra.value)
  {
    if ObjectOf(declared, extra).Success? {
      var d := declared.value;
      var x := extra.value;
      NamesPutAll([], d + x);
      assert Names(d + x) == Names(d) + Names(x) by {
        assert forall f :: f in d + x <==> f in d || f in x;
      }
    }
  }

  /** In the assembled object a field assigned last under its name keeps its value. */
  lemma ObjectOfGet(declared: Result<seq<Field>, Err>, extra: Result<seq<Field>, Err>, i: nat)
    requires declared.Success? && extra.Success? && i < |declared.value + extra.value|
    requires forall k :: i < k < |declared.value + extra.value| ==>
      (declared.value + extra.value)[k].name != (declared.value + extra.value)[i].name
    ensures ObjectOf(declared, extra).Success? && ObjectOf(declared, extra).value.JObj?
    ensures Get(ObjectOf(declared, extra).value.fields, (declared.value + extra.value)[i].name)
      == Some((declared.value + extra.value)[i].val)
  {
    GetPutAllLast([], declared.value + extra.value, i);
  }

  /** A converted object never repeats a property name. */
  lemma ObjectUnique(ctx: Ctx, dir: Direction, v: JVal, s: Schema, refName: string, key: string, parent: string)
    requires Valid(ctx.reg) && s.Obj?
    ensures var r := Resolved(ctx, dir, v, s, refName, key, parent);
      r.Success? ==> r.value.JObj? && UniqueNames(r.value.fields)
  {
    if IsObjectLike(v) {
      var dr := DeclaredFields(ctx, dir, v, s, refName);
      var xr := ExtraFields(ctx, dir, v, s, refName);
      ObjectStep(ctx, dir, v, s, refName, key, parent);
      if dr.Success? && xr.Success? {
        PutAllUnique([], dr.value + xr.value);
      }
    } else {
      ObjectShape(ctx, dir, v, s, refName, key, parent);
    }
  }

  /** The object branch of the dispatch, for a value that passed the shape test. */
  lemma ObjectStep(ctx: Ctx, dir: Direction, v: JVal, s: Schema, refName: string, key: string, parent: string)
    requires Valid(ctx.reg) && s.Obj? && IsObjectLike(v)
    ensures Resolved(ctx, dir, v, s, refName, key, parent)
      == ObjectOf(DeclaredFields(ctx, dir, v, s, refName), ExtraFields(ctx, dir, v, s, refName))
  {
  }

  /**
    A converted object carries the output name of every declared property
    (present in the input or not) and the name of every undeclared own
    property, and nothing else.
  */
  lemma ObjectNames(ctx: Ctx, dir: Direction, v: JVal, s: Schema, refName: string, key: string, parent: string)
    requires Valid(ctx.reg) && s.Obj?
    ensures var r := Resolved(ctx, dir, v, s, refName, key, parent);
      var es := Entries(s.props, dir);
      r.Success? ==>
        && r.value.JObj?
        && Names(r.value.fields) == OutNames(es) + (set f | f in OwnFields(v) && !Declares(es, f.name) :: f.name)
  {
    if IsObjectLike(v) {
      var dr := DeclaredFields(ctx, dir, v, s, refName);
      var xr := ExtraFields(ctx, dir, v, s, refName);
      ObjectStep(ctx, dir, v, s, refName, key, parent);
      ObjectOfNames(dr, xr);
      DeclaredPartNames(ctx, dir, v, s, refName);
      ExtraPartNames(ctx, dir, v, s, refName);
    } else {
      ObjectShape(ctx, dir, v, s, refName, key, parent);
    }
  }

  /** The declared part carries the table's output names. */
  lemma DeclaredPartNames(ctx: Ctx, dir: Direction, v: JVal, s: Schema, refName: string)
    requires Valid(ctx.reg) && s.Obj?
    ensures var dr := DeclaredFields(ctx, dir, v, s, refName);
      dr.Success? ==> Names(dr.value) == OutNames(Entries(s.props, dir))
  {
    var dr := DeclaredFields(ctx, dir, v, s, refName);
    DeclaredFieldsValues(ctx, dir, v, s, refName);
    if dr.Success? {
      DeclaredNames(Entries(s.props, dir), dr.value);
    }
  }

  /** The undeclared part carries the names of the undeclared own properties. */
  lemma ExtraPartNames(ctx: Ctx, dir: Direction, v: JVal, s: Schema, refName: string)
    requires Valid(ctx.reg) && s.Obj?
    ensures var xr := ExtraFields(ctx, dir, v, s, refName);
      var es := Entries(s.props, dir);
      xr.Success? ==> Names(xr.value) == (set f | f in OwnFields(v) && !Declares(es, f.name) :: f.name)
  {
    var es := Entries(s.props, dir);
    var xr := ExtraFields(ctx, dir, v, s, refName);
    ExtraFieldsValues(ctx, dir, v, s, refName);
    if xr.Success? {
      UndeclaredSpec(OwnFields(v), es);
      var xs := Extras(v, s, dir);
      SameNames(xr.value, xs);
      assert Names(xs) == (set f | f in OwnFields(v) && !Declares(es, f.name) :: f.name);
    }
  }

  /** Fields written under the table's output names, one per entry, carry exactly those names. */
  lemma DeclaredNames(es: seq<Entry>, d: seq<Field>)
    requires |d| == |es| && forall j :: 0 <= j < |es| ==> d[j].name == es[j].out
    ensures Names(d) == OutNames(es)
  {
    forall n ensures n in Names(d) <==> n in OutNames(es) {
      if n in OutNames(es) {
        var e :| e in es && e.out == n;
        var j :| 0 <= j < |es| && es[j] == e;
        assert d[j] in d;
      }
      if n in Names(d) {
        var f :| f in d && f.name == n;
        var j :| 0 <= j < |d| && d[j] == f;
        assert es[j] in es;
      }
    }
  }

  /** Two field lists that agree name by name have the same names. */
  lemma SameNames(a: seq<Field>, b: seq<Field>)
    requires |a| == |b| && forall j :: 0 <= j < |a| ==> a[j].name == b[j].name
    ensures Names(a) == Names(b)
  {
    forall n ensures n in Names(a) <==> n in Names(b) {
      if n in Names(a) {
        var f :| f in a && f.name == n;
        var j :| 0 <= j < |a| && a[j] == f;
        assert b[j] in b;
      }
      if n in Names(b) {
        var f :| f in b && f.name == n;
        var j :| 0 <= j < |b| && b[j] == f;
        assert a[j] in a;
      }
    }
  }

  /**
    The value under a declared output name is that property's converted
    value, provided no later declared property and no undeclared own property
    writes the same name (later assignments win, as in the source).
  */
  lemma DeclaredValue(ctx: Ctx, dir: Direction, v: JVal, s: Schema, refName: string, key: string, parent: string, j: nat)
    requires Valid(ctx.reg) && s.Obj?
    requires j < |Entries(s.props, dir)|
    requires forall k :: j < k < |Entries(s.props, dir)| ==> Entries(s.props, dir)[k].out != Entries(s.props, dir)[j].out
    requires Entries(s.props, dir)[j].out !in Names(Extras(v, s, dir))
    ensures var r := Resolved(ctx, dir, v, s, refName, key, parent);
      var ts := DeclaredResults(ctx, dir, v, s, refName);
      r.Success? ==>
        && r.value.JObj?
        && j < |ts| && ts[j].Success?
        && Get(r.value.fields, Entries(s.props, dir)[j].out) == Some(ts[j].value)
  {
    if IsObjectLike(v) {
      var es := Entries(s.props, dir);
      var dr := DeclaredFields(ctx, dir, v, s, refName);
      var xr := ExtraFields(ctx, dir, v, s, refName);
      ObjectStep(ctx, dir, v, s, refName, key, parent);
      if dr.Success? && xr.Success? {
        DeclaredFieldsValues(ctx, dir, v, s, refName);
        ExtraFieldsValues(ctx, dir, v, s, refName);
        var xs := Extras(v, s, dir);
        assert forall k :: 0 <= k < |es| ==> dr.value[k].name == es[k].out;
        assert forall k :: 0 <= k < |xs| ==> xr.value[k].name == xs[k].name;
        DeclaredWrittenLast(dr.value, xr.value, xs, es, j);
        assert (dr.value + xr.value)[j] == dr.value[j];
        ObjectOfGet(dr, xr, j);
      }
    } else {
      ObjectShape(ctx, dir, v, s, refName, key, parent);
    }
  }

  /** A declared field no later entry and no undeclared property renames is the last write of its name. */
  lemma DeclaredWrittenLast(d: seq<Field>, x: seq<Field>, xs: seq<Field>, es: seq<Entry>, j: nat)
    requires |d| == |es| && j < |es| && |x| == |xs|
    requires forall k :: 0 <= k < |es| ==> d[k].name == es[k].out
    requires forall k :: 0 <= k < |xs| ==> x[k].name == xs[k].name
    requires forall k :: j < k < |es| ==> es[k].out != es[j].out
    requires es[j].out !in Names(xs)
    ensures forall k :: j < k < |d + x| ==> (d + x)[k].name != (d + x)[j].name
  {
    var all := d + x;
    forall k | j < k < |all| ensures all[k].name != all[j].name {
      assert all[j] == d[j];
      if k < |d| {
        assert all[k] == d[k];
      } else {
        assert all[k] == x[k - |d|];
        assert xs[k - |d|] in xs;
      }
    }
  }

  /**
    The value under an undeclared own property's name is its conversion by
    `additional`, provided the input repeats no name and no declared property
    writes that name.
  */
  lemma ExtraValue(ctx: Ctx, dir: Direction, v: JVal, s: Schema, refName: string, key: string, parent: string, m: nat)
    requires Valid(ctx.reg) && s.Obj? && UniqueNames(OwnFields(v)) && m < |Extras(v, s, dir)|
    ensures var r := Resolved(ctx, dir, v, s, refName, key, parent);
      var us := ExtraResults(ctx, dir, v, s, refName);
      r.Success? ==>
        && r.value.JObj?
        && m < |us| && us[m].Success?
        && Get(r.value.fields, Extras(v, s, dir)[m].name) == Some(us[m].value)
  {
    if IsObjectLike(v) {
      ObjectStep(ctx, dir, v, s, refName, key, parent);
      ExtraValueOf(ctx, dir, v, s, refName, m);
    } else {
      ObjectShape(ctx, dir, v, s, refName, key, parent);
    }
  }

  /** `ExtraValue` for the object the two parts assemble. */
  lemma ExtraValueOf(ctx: Ctx, dir: Direction, v: JVal, s: Schema, refName: string, m: nat)
    requires Valid(ctx.reg) && s.Obj? && UniqueNames(OwnFields(v)) && m < |Extras(v, s, dir)|
    ensures var o := ObjectOf(DeclaredFields(ctx, dir, v, s, refName), ExtraFields(ctx, dir, v, s, refName));
      var us := ExtraResults(ctx, dir, v, s, refName);
      o.Success? ==>
        && o.value.JObj?
        && m < |us| && us[m].Success?
        && Get(o.value.fields, Extras(v, s, dir)[m].name) == Some(us[m].value)
  {
    var dr := DeclaredFields(ctx, dir, v, s, refName);
    var xr := ExtraFields(ctx, dir, v, s, refName);
    if dr.Success? && xr.Success? {
      ExtraLast(ctx, dir, v, s, refName, dr.value, m);
      ObjectOfExtra(dr, xr, ExtraResults(ctx, dir, v, s, refName), Extras(v, s, dir), m);
    }
  }

  /** The field at `|d| + m`, if written last under its name, is what the assembled object holds. */
  lemma ObjectOfExtra(dr: Result<seq<Field>, Err>, xr: Result<seq<Field>, Err>, us: seq<Result<JVal, Err>>, xs: seq<Field>, m: nat)
    requires dr.Success? && xr.Success? && m < |xr.value| && m < |xs| && m < |us| && us[m].Success?
    requires (dr.value + xr.value)[|dr.value| + m] == Field(xs[m].name, us[m].value)
    requires forall k :: |dr.value| + m < k < |dr.value + xr.value| ==>
      (dr.value + xr.value)[k].name != (dr.value + xr.value)[|dr.value| + m].name
    ensures ObjectOf(dr, xr).Success? && ObjectOf(dr, xr).value.JObj?
    ensures Get(ObjectOf(dr, xr).value.fields, xs[m].name) == Some(us[m].value)
  {
    ObjectOfGet(dr, xr, |dr.value| + m);
  }

  /** After any declared fields `d`, undeclared property `m` holds its converted value and is not written again. */
  lemma ExtraLast(ctx: Ctx, dir: Direction, v: JVal, s: Schema, refName: string, d: seq<Field>, m: nat)
    requires Valid(ctx.reg) && s.Obj? && UniqueNames(OwnFields(v)) && m < |Extras(v, s, dir)|
    requires ExtraFields(ctx, dir, v, s, refName).Success?
    ensures var x := ExtraFields(ctx, dir, v, s, refName).value;
      var us := ExtraResults(ctx, dir, v, s, refName);
      var xs := Extras(v, s, dir);
      && m < |x| && m < |us| && us[m].Success?
      && (d + x)[|d| + m] == Field(xs[m].name, us[m].value)
      && forall k :: |d| + m < k < |d + x| ==> (d + x)[k].name != (d + x)[|d| + m].name
  {
    ExtraFieldsValues(ctx, dir, v, s, refName);
    UndeclaredSpec(OwnFields(v), Entries(s.props, dir));
    ExtraWrittenLast(d, ExtraFields(ctx, dir, v, s, refName).value, Extras(v, s, dir), m);
  }

  /** An undeclared property whose name the input does not repeat is the last write of its name. */
  lemma ExtraWrittenLast(d: seq<Field>, x: seq<Field>, xs: seq<Field>, m: nat)
    requires |x| == |xs| && m < |xs| && UniqueNames(xs)
    requires forall k :: 0 <= k < |xs| ==> x[k].name == xs[k].name
    ensures (d + x)[|d| + m] == x[m]
    ensures forall k :: |d| + m < k < |d + x| ==> (d + x)[k].name != (d + x)[|d| + m].name
  {
    var all := d + x;
    forall k | |d| + m < k < |all| ensures all[k].name != all[|d| + m].name {
      assert all[k] == x[k - |d|];
    }
  }

  /**
    A declared property that fails makes the object fail, with that
    property's error when every declared property before it converts.
  */
  lemma DeclaredFailureAt(ctx: Ctx, dir: Direction, v: JVal, s: Schema, refName: string, key: string, parent: string, j: nat)
    requires Valid(ctx.reg) && s.Obj? && IsObjectLike(v)
    requires j < |DeclaredResults(ctx, dir, v, s, refName)| && DeclaredResults(ctx, dir, v, s, refName)[j].Failure?
    ensures var r := Resolved(ctx, dir, v, s, refName, key, parent);
      var ts := DeclaredResults(ctx, dir, v, s, refName);
      && r.Failure?
      && ((forall k :: 0 <= k < j ==> ts[k].Success?) ==> Failure(r.error) == ts[j])
  {
    ObjectAccepts(ctx, dir, v, s, refName, key, parent);
    ObjectFirstError(ctx, dir, v, s, refName, key, parent);
  }

  /**
    A failed object conversion reports the first declared property that
    fails or, when they all convert, the first undeclared own property that
    fails.
  */
  lemma ObjectFirstError(ctx: Ctx, dir: Direction, v: JVal, s: Schema, refName: string, key: string, parent: string)
    requires Valid(ctx.reg) && s.Obj? && IsObjectLike(v)
    ensures var r := Resolved(ctx, dir, v, s, refName, key, parent);
      var ts := DeclaredResults(ctx, dir, v, s, refName);
      var us := ExtraResults(ctx, dir, v, s, refName);
      r.Failure? ==>
        || (exists k :: 0 <= k < |ts| && ts[k] == Failure(r.error) && forall j :: 0 <= j < k ==> ts[j].Success?)
        || (&& (forall j :: 0 <= j < |ts| ==> ts[j].Success?)
            && exists k :: 0 <= k < |us| && us[k] == Failure(r.error) && forall j :: 0 <= j < k ==> us[j].Success?)
  {
    ObjectStep(ctx, dir, v, s, refName, key, parent);
    var dr := DeclaredFields(ctx, dir, v, s, refName);
    DeclaredFieldsError(ctx, dir, v, s, refName);
    if dr.Success? {
      DeclaredFieldsOk(ctx, dir, v, s, refName);
      ExtraFieldsError(ctx, dir, v, s, refName);
    }
  }
}

=== FILE: plain_facts.dfy ===
/**
  Schemas built without objects, references or dates convert every value
  they accept to itself. For them, acceptance has a direct description that
  does not mention the converter at all.
*/
module Plain {
  import opened Json
  import opened Schemas
  import opened PropNames
  import opened Engine

  /** No object, reference or date anywhere inside. */
  predicate IsPlain(s: Schema) {
    match s
    case Obj(_, _) => false
    case Ref(_) => false
    case DateT => false
    case Union(ms) => forall i :: 0 <= i < |ms| ==> IsPlain(ms[i])
    case Arr(e) => IsPlain(e)
    case _ => true
  }

  /** The values a plain schema stands for. */
  ghost predicate Admits(s: Schema, v: JVal)
    requires IsPlain(s)
  {
    match s
    case Any => true
    case Null => v == JNull
    case Never => false
    case Absent => v == Undefined
    case Prim(_) => TypeOf(v) == SchemaType(s)
    case Enum(cases) => v.JStr? && v.str in cases
    case Union(ms) => exists i :: 0 <= i < |ms| && Admits(ms[i], v)
    case Arr(e) => v.JArr? && forall j :: 0 <= j < |v.elems| ==> Admits(e, v.elems[j])
  }

  /**
    A plain schema converts `v`, in either direction, exactly when it admits
    `v`, and then returns `v` itself.
  */
  lemma {:induction false} PlainTransform(ctx: Ctx, dir: Direction, v: JVal, s: Schema, key: string, parent: string)
    requires Valid(ctx.reg) && IsPlain(s)
    ensures var r := Transform(ctx, dir, v, s, key, parent);
      && (r.Success? <==> Admits(s, v))
      && (r.Success? ==> r.value == v)
    decreases s, 2, 0
  {
    match s
    case Union(_) => PlainUnion(ctx, dir, v, s, key, parent);
    case Arr(_) => PlainArray(ctx, dir, v, s, key, parent);
    case _ => PlainLeaf(ctx, dir, v, s, key, parent);
  }

  /** The cases with no sub-schema. */
  lemma PlainLeaf(ctx: Ctx, dir: Direction, v: JVal, s: Schema, key: string, parent: string)
    requires Valid(ctx.reg) && IsPlain(s) && !s.Union? && !s.Arr?
    ensures var r := Transform(ctx, dir, v, s, key, parent);
      && (r.Success? <==> Admits(s, v))
      && (r.Success? ==> r.value == v)
  {
  }

  lemma {:induction false} PlainUnion(ctx: Ctx, dir: Direction, v: JVal, s: Schema, key: string, parent: string)
    requires Valid(ctx.reg) && IsPlain(s) && s.Union?
    ensures var r := Transform(ctx, dir, v, s, key, parent);
      && (r.Success? <==> Admits(s, v))
      && (r.Success? ==> r.value == v)
    decreases s, 1, 0
  {
    assert Transform(ctx, dir, v, s, key, parent) == Resolved(ctx, dir, v, s, "", key, parent);
    PlainMembers(ctx, dir, v, s, 0);
  }

  lemma {:induction false} PlainArray(ctx: Ctx, dir: Direction, v: JVal, s: Schema, key: string, parent: string)
    requires Valid(ctx.reg) && IsPlain(s) && s.Arr?
    ensures var r := Transform(ctx, dir, v, s, key, parent);
      && (r.Success? <==> Admits(s, v))
      && (r.Success? ==> r.value == v)
    decreases s, 1, 0
  {
    assert Transform(ctx, dir, v, s, key, parent) == Resolved(ctx, dir, v, s, "", key, parent);
    if v.JArr? {
      PlainItems(ctx, dir, v.elems, s, 0);
      assert v.elems[0..] == v.elems;
    }
  }

  /** The union loop from member `i` finds a member exactly when some later member admits `v`, and yields `v`. */
  lemma {:induction false} PlainMembers(ctx: Ctx, dir: Direction, v: JVal, s: Schema, i: nat)
    requires Valid(ctx.reg) && s.Union? && IsPlain(s) && i <= |s.members|
    ensures var r := TryMembers(ctx, dir, v, s, i);
      && (r.Some? <==> exists j :: i <= j < |s.members| && Admits(s.members[j], v))
      && (r.Some? ==> r.value == v)
    decreases s, 0, |s.members| - i
  {
    if i < |s.members| {
      PlainTransform(ctx, dir, v, s.members[i], "", "");
      PlainMembers(ctx, dir, v, s, i + 1);
      if !Admits(s.members[i], v) {
        assert (exists j :: i <= j < |s.members| && Admits(s.members[j], v))
          <==> (exists j :: i + 1 <= j < |s.members| && Admits(s.members[j], v));
      }
    }
  }

  /** The array loop from element `i` succeeds exactly when the item schema admits every later element, and yields them unchanged. */
  lemma {:induction false} PlainItems(ctx: Ctx, dir: Direction, xs: seq<JVal>, s: Schema, i: nat)
    requires Valid(ctx.reg) && s.Arr? && IsPlain(s) && i <= |xs|
    ensures var r := Items(ctx, dir, xs, s, i);
      && (r.Success? <==> forall j :: i <= j < |xs| ==> Admits(s.items, xs[j]))
      && (r.Success? ==> r.value == xs[i..])
    decreases s, 0, |xs| - i
  {
    if i < |xs| {
      PlainTransform(ctx, dir, xs[i], s.items, "", "");
      PlainItems(ctx, dir, xs, s, i + 1);
      assert xs[i..] == [xs[i]] + xs[i + 1..];
    }
  }
}

=== FILE: prop_names.dfy ===
/**
  The per-object lookup tables of the two directions (`jsonToJSProps` and
  `jsToJSONProps`): decoding reads a property by its JSON name and writes it
  under its JavaScript name, encoding the other way round. The source builds
  each table as a plain object keyed by the name read, so a later property
  with the same name replaces an earlier one but keeps its position.
*/
module PropNames {
  import opened Schemas

  datatype Direction = Decode | Encode

  /** Read property `lookup`, write the result as `out`, using the schema of `props[idx]`. */
  datatype Entry = Entry(lookup: string, out: string, idx: nat)

  function InName(p: Prop, dir: Direction): string {
    if dir == Decode then p.json else p.js
  }

  function OutName(p: Prop, dir: Direction): string {
    if dir == Decode then p.js else p.json
  }

  function Lookups(es: seq<Entry>): set<string> {
    set e | e in es :: e.lookup
  }

  /** `hasOwnProperty(table, k)`. */
  predicate Declares(es: seq<Entry>, k: string) {
    exists e :: e in es && e.lookup == k
  }

  predicate UniqueLookups(es: seq<Entry>) {
    forall i, j :: 0 <= i < j < |es| ==> es[i].lookup != es[j].lookup
  }

  /** `table[e.lookup] = e`: replace the entry of that name in place, or append. */
  function AddEntry(es: seq<Entry>, e: Entry): (r: seq<Entry>)
    ensures forall x :: x in r ==> x == e || x in es
  {
    if |es| == 0 then [e]
    else if es[0].lookup == e.lookup then [e] + es[1..]
    else [es[0]] + AddEntry(es[1..], e)
  }

  /** A new name goes at the end; a known one replaces its entry where it stands. */
  lemma {:induction false} AddEntryCases(es: seq<Entry>, e: Entry)
    ensures e.lookup !in Lookups(es) ==> AddEntry(es, e) == es + [e]
    ensures e.lookup in Lookups(es) ==>
      exists j :: 0 <= j < |es| && es[j].lookup == e.lookup && AddEntry(es, e) == es[j := e]
  {
    if |es| > 0 && es[0].lookup != e.lookup {
      var rest := AddEntry(es[1..], e);
      AddEntryCases(es[1..], e);
      assert Lookups(es) == {es[0].lookup} + Lookups(es[1..]) by {
        assert forall x :: x in es <==> x == es[0] || x in es[1..];
      }
      if e.lookup in Lookups(es[1..]) {
        var j :| 0 <= j < |es[1..]| && es[1..][j].lookup == e.lookup && rest == es[1..][j := e];
        assert [es[0]] + rest == es[j + 1 := e];
      } else {
        assert [es[0]] + rest == es + [e];
      }
    } else if |es| > 0 {
      assert es[0] in es;
      assert [e] + es[1..] == es[0 := e];
    }
  }

  /** Every entry reads and writes the names of one of the first `n` properties. */
  ghost predicate Points(es: seq<Entry>, props: seq<Prop>, dir: Direction, n: nat)
    requires n <= |props|
  {
    forall i :: 0 <= i < |es| ==>
      && es[i].idx < n
      && es[i].lookup == InName(props[es[i].idx], dir)
      && es[i].out == OutName(props[es[i].idx], dir)
  }

  /** No later one of the first `n` properties is read under an entry's name. */
  ghost predicate LastWins(es: seq<Entry>, props: seq<Prop>, dir: Direction, n: nat)
    requires n <= |props|
  {
    forall i, k :: 0 <= i < |es| && es[i].idx < k < n ==> InName(props[k], dir) != es[i].lookup
  }

  /** The name of each of the first `n` properties has an entry. */
  ghost predicate Covers(es: seq<Entry>, props: seq<Prop>, dir: Direction, n: nat)
    requires n <= |props|
  {
    forall k :: 0 <= k < n ==> InName(props[k], dir) in Lookups(es)
  }

  /**
    `es` is the lookup table of the first `n` properties: each name read
    appears once; its entry points at the LAST of those properties declaring
    that name; every one of their names appears.
  */
  ghost predicate TableOf(es: seq<Entry>, props: seq<Prop>, dir: Direction, n: nat)
    requires n <= |props|
  {
    UniqueLookups(es) && Points(es, props, dir, n) && LastWins(es, props, dir, n) && Covers(es, props, dir, n)
  }

  /** The table of the first `n` properties, built front to back as the source does. */
  function Build(props: seq<Prop>, dir: Direction, n: nat): (es: seq<Entry>)
    requires n <= |props|
    ensures forall x :: x in es ==> x.idx < n
  {
    if n == 0 then []
    else AddEntry(Build(props, dir, n - 1), NewEntry(props, dir, n - 1))
  }

  /** The entry property `k` contributes. */
  function NewEntry(props: seq<Prop>, dir: Direction, k: nat): Entry
    requires k < |props|
  {
    Entry(InName(props[k], dir), OutName(props[k], dir), k)
  }

  /** The lookup table of a property list (`jsonToJSProps` or `jsToJSONProps`). */
  function Entries(props: seq<Prop>, dir: Direction): (es: seq<Entry>)
    ensures forall i :: 0 <= i < |es| ==> es[i].idx < |props|
  {
    Build(props, dir, |props|)
  }

  /** `Entries` is a lookup table of its property list. */
  lemma EntriesTable(props: seq<Prop>, dir: Direction)
    ensures TableOf(Entries(props, dir), props, dir, |props|)
  {
    BuildTable(props, dir, |props|);
  }

  lemma {:induction false} BuildTable(props: seq<Prop>, dir: Direction, n: nat)
    requires n <= |props|
    ensures TableOf(Build(props, dir, n), props, dir, n)
  {
    if n > 0 {
      BuildTable(props, dir, n - 1);
      var prev := Build(props, dir, n - 1);
      var e := NewEntry(props, dir, n - 1);
      AddEntryCases(prev, e);
      if e.lookup in Lookups(prev) {
        var j :| 0 <= j < |prev| && prev[j].lookup == e.lookup && AddEntry(prev, e) == prev[j := e];
        ReplaceUnique(prev, e, j);
        ReplacePoints(prev, props, dir, n, j);
        ReplaceLastWins(prev, props, dir, n, j);
        ReplaceCovers(prev, props, dir, n, j);
      } else {
        AppendUnique(prev, e);
        AppendPoints(prev, props, dir, n);
        AppendLastWins(prev, props, dir, n);
        AppendCovers(prev, props, dir, n);
      }
    }
  }

  lemma ReplaceUnique(prev: seq<Entry>, e: Entry, j: nat)
    requires UniqueLookups(prev) && j < |prev| && prev[j].lookup == e.lookup
    ensures UniqueLookups(prev[j := e])
  {
  }

  lemma ReplacePoints(prev: seq<Entry>, props: seq<Prop>, dir: Direction, n: nat, j: nat)
    requires 0 < n <= |props| && Points(prev, props, dir, n - 1) && j < |prev|
    ensures Points(prev[j := NewEntry(props, dir, n - 1)], props, dir, n)
  {
  }

  lemma ReplaceLastWins(prev: seq<Entry>, props: seq<Prop>, dir: Direction, n: nat, j: nat)
    requires 0 < n <= |props| && j < |prev| && prev[j].lookup == InName(props[n - 1], dir)
    requires UniqueLookups(prev) && Points(prev, props, dir, n - 1) && LastWins(prev, props, dir, n - 1)
    ensures LastWins(prev[j := NewEntry(props, dir, n - 1)], props, dir, n)
  {
    var r := prev[j := NewEntry(props, dir, n - 1)];
    forall i, k | 0 <= i < |r| && r[i].idx < k < n
      ensures InName(props[k], dir) != r[i].lookup
    {
      assert i != j;
      assert r[i] == prev[i];
      if k == n - 1 {
        assert prev[i].lookup != prev[j].lookup;
      } else {
        assert prev[i].idx < k < n - 1;
      }
    }
  }

  lemma ReplaceCovers(prev: seq<Entry>, props: seq<Prop>, dir: Direction, n: nat, j: nat)
    requires 0 < n <= |props| && j < |prev| && prev[j].lookup == InName(props[n - 1], dir)
    requires Covers(prev, props, dir, n - 1)
    ensures Covers(prev[j := NewEntry(props, dir, n - 1)], props, dir, n)
  {
    var r := prev[j := NewEntry(props, dir, n - 1)];
    forall k | 0 <= k < n ensures InName(props[k], dir) in Lookups(r) {
      if k == n - 1 {
        assert r[j] in r;
      } else {
        var x := InName(props[k], dir);
        assert x in Lookups(prev);
        var f :| f in prev && f.lookup == x;
        var i :| 0 <= i < |prev| && prev[i] == f;
        assert r[i].lookup == x;
        assert r[i] in r;
      }
    }
  }

  lemma AppendUnique(prev: seq<Entry>, e: Entry)
    requires UniqueLookups(prev) && e.lookup !in Lookups(prev)
    ensures UniqueLookups(prev + [e])
  {
    var r := prev + [e];
    forall i, j | 0 <= i < j < |r| ensures r[i].lookup != r[j].lookup {
      if j == |prev| {
        assert prev[i] in prev;
      }
    }
  }

  lemma AppendPoints(prev: seq<Entry>, props: seq<Prop>, dir: Direction, n: nat)
    requires 0 < n <= |props| && Points(prev, props, dir, n - 1)
    ensures Points(prev + [NewEntry(props, dir, n - 1)], props, dir, n)
  {
  }

  lemma AppendLastWins(prev: seq<Entry>, props: seq<Prop>, dir: Direction, n: nat)
    requires 0 < n <= |props| && InName(props[n - 1], dir) !in Lookups(prev)
    requires LastWins(prev, props, dir, n - 1)
    ensures LastWins(prev + [NewEntry(props, dir, n - 1)], props, dir, n)
  {
    var r := prev + [NewEntry(props, dir, n - 1)];
    forall i, k | 0 <= i < |r| && r[i].idx < k < n
      ensures InName(props[k], dir) != r[i].lookup
    {
      assert i < |prev| && r[i] == prev[i];
      if k == n - 1 {
        assert prev[i] in prev;
      }
    }
  }

  lemma AppendCovers(prev: seq<Entry>, props: seq<Prop>, dir: Direction, n: nat)
    requires 0 < n <= |props| && Covers(prev, props, dir, n - 1)
    ensures Covers(prev + [NewEntry(props, dir, n - 1)], props, dir, n)
  {
    var r := prev + [NewEntry(props, dir, n - 1)];
    forall k | 0 <= k < n ensures InName(props[k], dir) in Lookups(r) {
      if k == n - 1 {
        assert r[|prev|] in r;
      } else {
        var x := InName(props[k], dir);
        var f :| f in prev && f.lookup == x;
        assert f in r;
      }
    }
  }

  /** No two properties are read under the same name. */
  predicate DistinctNames(props: seq<Prop>, dir: Direction) {
    forall i, j :: 0 <= i < j < |props| ==> InName(props[i], dir) != InName(props[j], dir)
  }

  /** With distinct names the table lists every property once, in declaration order. */
  lemma EntriesOfDistinct(props: seq<Prop>, dir: Direction)
    requires DistinctNames(props, dir)
    ensures |Entries(props, dir)| == |props|
    ensures forall i :: 0 <= i < |props| ==>
      Entries(props, dir)[i] == Entry(InName(props[i], dir), OutName(props[i], dir), i)
  {
    BuildDistinct(props, dir, |props|);
  }

  /** `es` holds the entries of the first `n` properties, one each, in declaration order. */
  predicate InOrder(es: seq<Entry>, props: seq<Prop>, dir: Direction, n: nat)
    requires n <= |props|
  {
    |es| == n && forall i :: 0 <= i < n ==> es[i] == NewEntry(props, dir, i)
  }

  lemma {:induction false} BuildDistinct(props: seq<Prop>, dir: Direction, n: nat)
    requires n <= |props| && DistinctNames(props, dir)
    ensures InOrder(Build(props, dir, n), props, dir, n)
  {
    if n > 0 {
      BuildDistinct(props, dir, n - 1);
      var prev := Build(props, dir, n - 1);
      FreshName(prev, props, dir, n);
      AddEntryCases(prev, NewEntry(props, dir, n - 1));
      InOrderAppend(prev, props, dir, n);
    }
  }

  /** With distinct names, property `n - 1` is not yet in the table of the ones before it. */
  lemma FreshName(prev: seq<Entry>, props: seq<Prop>, dir: Direction, n: nat)
    requires 0 < n <= |props| && DistinctNames(props, dir) && InOrder(prev, props, dir, n - 1)
    ensures InName(props[n - 1], dir) !in Lookups(prev)
  {
    var x := InName(props[n - 1], dir);
    forall f | f in prev ensures f.lookup != x {
      var i :| 0 <= i < |prev| && prev[i] == f;
      assert f.lookup == InName(props[i], dir);
    }
  }

  lemma InOrderAppend(prev: seq<Entry>, props: seq<Prop>, dir: Direction, n: nat)
    requires 0 < n <= |props| && InOrder(prev, props, dir, n - 1)
    ensures InOrder(prev + [NewEntry(props, dir, n - 1)], props, dir, n)
  {
  }

  /**
    Decoding and encoding tables are mirror images: when JSON names and
    JavaScript names are each distinct, entry `i` of one reads what entry `i`
    of the other writes, for the same property.
  */
  lemma NameMapsInverse(props: seq<Prop>)
    requires DistinctNames(props, Decode) && DistinctNames(props, Encode)
    ensures |Entries(props, Decode)| == |Entries(props, Encode)| == |props|
    ensures forall i :: 0 <= i < |props| ==>
      && Entries(props, Decode)[i] == Entry(props[i].json, props[i].js, i)
      && Entries(props, Encode)[i] == Entry(props[i].js, props[i].json, i)
  {
    EntriesOfDistinct(props, Decode);
    EntriesOfDistinct(props, Encode);
  }
}

=== FILE: ref_facts.dfy ===
/**
  What following a reference (`r(name)`, looked up in `typeMap`) does to a
  conversion: which definitions it reaches, and where the reference name
  shows up in errors.
*/
module RefFacts {
  import opened Results
  import opened Json
  import opened Schemas
  import opened PropNames
  import opened Errors
  import opened Engine
  import opened ObjectFacts

  /** Following a defined name continues the dispatch at its definition, with the name as the reference name. */
  lemma RefStep(ctx: Ctx, dir: Direction, v: JVal, n: string, key: string, parent: string)
    requires Valid(ctx.reg) && n in ctx.reg.defs
    ensures Transform(ctx, dir, v, Ref(n), key, parent) == Resolved(ctx, dir, v, ctx.reg.defs[n], n, key, parent)
  {
    assert Transform(ctx, dir, v, Ref(n), key, parent) == Resolved(ctx, dir, v, Ref(n), "", key, parent);
  }

  /**
    A name the registry does not define, and the registry object does not
    inherit, reads as `undefined`, so only a missing value passes.
  */
  lemma UnknownRef(ctx: Ctx, dir: Direction, v: JVal, n: string, key: string, parent: string)
    requires Valid(ctx.reg) && n !in ctx.reg.defs && n !in InheritedMethods && n != "__proto__"
    ensures var r := Transform(ctx, dir, v, Ref(n), key, parent);
      && (r.Success? <==> v == Undefined)
      && (r.Success? ==> r.value == v)
      && (r.Failure? ==> r.error == Invalid(ExpSchema(Absent), v, key, parent))
  {
  }

  /**
    A name the registry does not define but inherits from `Object.prototype`
    rejects every value: a method is printed as "function", `__proto__` as
    "object".
  */
  lemma InheritedRef(ctx: Ctx, dir: Direction, v: JVal, n: string, key: string, parent: string)
    requires Valid(ctx.reg) && n !in ctx.reg.defs && (n in InheritedMethods || n == "__proto__")
    ensures var r := Transform(ctx, dir, v, Ref(n), key, parent);
      && r.Failure? && r.error.Invalid?
      && r.error.value == v && r.error.key == key && r.error.parent == parent
      && PrettyTypeName(r.error.expected) == if n == "__proto__" then "object" else "function"
  {
  }

  /** A registry entry that is `null` makes the reference loop dereference null. */
  lemma NullEntry(ctx: Ctx, dir: Direction, v: JVal, n: string, key: string, parent: string)
    requires Valid(ctx.reg) && n in ctx.reg.defs && ctx.reg.defs[n] == Null
    ensures Transform(ctx, dir, v, Ref(n), key, parent) == Failure(NullDereference)
  {
    RefStep(ctx, dir, v, n, key, parent);
  }

  /**
    A reference to an enum, union, array, date or primitive converts exactly
    as that definition does when written in place: the reference name is only
    ever used by objects.
  */
  lemma RefTransparent(ctx: Ctx, dir: Direction, v: JVal, n: string, key: string, parent: string)
    requires Valid(ctx.reg) && n in ctx.reg.defs
    requires var d := ctx.reg.defs[n]; d.Enum? || d.Union? || d.Arr? || d.DateT? || d.Prim? || d.Absent?
    ensures Transform(ctx, dir, v, Ref(n), key, parent) == Transform(ctx, dir, v, ctx.reg.defs[n], key, parent)
  {
    RefStep(ctx, dir, v, n, key, parent);
  }

  /**
    `"any"` and `false` reached through a reference are past the early tests
    and are compared by `typeof`: they accept exactly the strings and exactly
    the booleans.
  */
  lemma RefToAnyOrNever(ctx: Ctx, dir: Direction, v: JVal, n: string, key: string, parent: string)
    requires Valid(ctx.reg) && n in ctx.reg.defs && ctx.reg.defs[n] in {Any, Never}
    ensures var r := Transform(ctx, dir, v, Ref(n), key, parent);
      && (ctx.reg.defs[n] == Any ==> (r.Success? <==> v.JStr?))
      && (ctx.reg.defs[n] == Never ==> (r.Success? <==> v.JBool?))
      && (r.Success? ==> r.value == v)
      && (r.Failure? ==> r.error == Invalid(ExpSchema(ctx.reg.defs[n]), v, key, parent))
  {
    RefStep(ctx, dir, v, n, key, parent);
  }

  /** A value of the wrong shape for a referenced object is reported under the reference name. */
  lemma RefShape(ctx: Ctx, dir: Direction, v: JVal, n: string, key: string, parent: string)
    requires Valid(ctx.reg) && n in ctx.reg.defs && ctx.reg.defs[n].Obj? && !IsObjectLike(v)
    ensures Transform(ctx, dir, v, Ref(n), key, parent)
      == Failure(Invalid(ExpLiteral(if n == "" then "object" else n), v, key, parent))
  {
    ObjectShape(ctx, dir, v, ctx.reg.defs[n], n, key, parent);
  }

  /** The error is the registry's null dereference, or a rejection of `v` itself under `key` and `parent`. */
  predicate ReportedAt(err: Err, v: JVal, key: string, parent: string) {
    err.NullDereference? || (err.Invalid? && err.value == v && err.key == key && err.parent == parent)
  }

  /**
    A value with no elements or properties to descend into (`undefined`, a
    primitive, `null`) is rejected, if at all, where it stands: under the key
    and parent it was given, whatever references lead to its schema.
  */
  lemma {:induction false} ShallowFailure(ctx: Ctx, dir: Direction, v: JVal, s: Schema, refName: string, key: string, parent: string)
    requires Valid(ctx.reg) && !v.JArr? && !IsObjectLike(v)
    ensures var r := Resolved(ctx, dir, v, s, refName, key, parent);
      r.Failure? ==> ReportedAt(r.error, v, key, parent)
    decreases Level(ctx.reg, s), s
  {
    if s.Ref? && s.name in ctx.reg.defs {
      ShallowFailure(ctx, dir, v, ctx.reg.defs[s.name], s.name, key, parent);
    }
  }

  /** `ShallowFailure` from the top of `transform`. */
  lemma ShallowTransform(ctx: Ctx, dir: Direction, v: JVal, s: Schema, key: string, parent: string)
    requires Valid(ctx.reg) && !v.JArr? && !IsObjectLike(v)
    ensures var r := Transform(ctx, dir, v, s, key, parent);
      r.Failure? ==> ReportedAt(r.error, v, key, parent)
  {
    if !(s.Any? || s.Null? || s.Never?) {
      ShallowFailure(ctx, dir, v, s, "", key, parent);
    }
  }

  /**
    A declared property missing from the value is converted as `undefined`;
    when its schema rejects `undefined` the referenced object fails, and when
    every property declared before it converts, the error is that property's:
    it names the property as key and the reference as parent (or is the
    registry's null dereference). A primitive property reports its own schema.
  */
  lemma MissingField(ctx: Ctx, dir: Direction, v: JVal, n: string, key: string, parent: string, j: nat)
    requires Valid(ctx.reg) && n in ctx.reg.defs && ctx.reg.defs[n].Obj? && IsObjectLike(v)
    requires j < |Entries(ctx.reg.defs[n].props, dir)|
    requires var s := ctx.reg.defs[n];
      var e := Entries(s.props, dir)[j];
      e.lookup !in Names(OwnFields(v)) && Transform(ctx, dir, Undefined, s.props[e.idx].typ, e.lookup, n).Failure?
    ensures var s := ctx.reg.defs[n];
      var e := Entries(s.props, dir)[j];
      var r := Transform(ctx, dir, v, Ref(n), key, parent);
      var ts := DeclaredResults(ctx, dir, v, s, n);
      && r.Failure?
      && ((forall k :: 0 <= k < j ==> ts[k].Success?) ==>
            && Failure(r.error) == Transform(ctx, dir, Undefined, s.props[e.idx].typ, e.lookup, n)
            && ReportedAt(r.error, Undefined, e.lookup, n)
            && (s.props[e.idx].typ.Prim? ==> r.error == Invalid(ExpSchema(s.props[e.idx].typ), Undefined, e.lookup, n)))
  {
    var s := ctx.reg.defs[n];
    var e := Entries(s.props, dir)[j];
    var ts := DeclaredResults(ctx, dir, v, s, n);
    RefStep(ctx, dir, v, n, key, parent);
    assert ts[j] == Transform(ctx, dir, Undefined, s.props[e.idx].typ, e.lookup, n) by {
      DeclaredResultsAt(ctx, dir, v, s, n, j);
      assert Lookup(v, e.lookup) == Undefined;
    }
    ShallowTransform(ctx, dir, Undefined, s.props[e.idx].typ, e.lookup, n);
    DeclaredFailureAt(ctx, dir, v, s, n, key, parent, j);
  }

  /**
    With `false` as the schema of undeclared properties (every object in the
    registry is built that way) any undeclared own property makes the object
    fail; when the declared ones all convert, the error is about the first
    undeclared one, under its own name and the reference name.
  */
  lemma ClosedObjectRejectsExtra(ctx: Ctx, dir: Direction, v: JVal, s: Schema, refName: string, key: string, parent: string)
    requires Valid(ctx.reg) && s.Obj? && s.additional == Never && IsObjectLike(v)
    requires |Extras(v, s, dir)| > 0
    ensures var r := Resolved(ctx, dir, v, s, refName, key, parent);
      var ts := DeclaredResults(ctx, dir, v, s, refName);
      var f := Extras(v, s, dir)[0];
      && r.Failure?
      && ((forall k :: 0 <= k < |ts| ==> ts[k].Success?) ==>
            r.error == Invalid(ExpSchema(Never), f.val, f.name, refName))
  {
    var f := Extras(v, s, dir)[0];
    var us := ExtraResults(ctx, dir, v, s, refName);
    ExtraResultsAt(ctx, dir, v, s, refName, 0);
    assert us[0] == Failure(Invalid(ExpSchema(Never), f.val, f.name, refName));
    ObjectAccepts(ctx, dir, v, s, refName, key, parent);
    ObjectFirstError(ctx, dir, v, s, refName, key, parent);
  }
}

=== FILE: results.dfy ===
/** Outcome datatypes shared by the converter and the task store. */
module Results {

  /** A value that may be missing, as `undefined` results are in the source. */
  datatype Option<+T> = None | Some(value: T) {

    /** The carried value, or `default` when there is none. */
    function GetOr(default: T): T {
      match this
      case Some(v) => v
      case None => default
    }
  }

  /** Either a converted value or the error the converter throws. */
  datatype Result<+T, +E> = Success(value: T) | Failure(error: E)

  /**
    Runs of conversions that stop at the first failure (`map` over the
    elements, `forEach` over the properties): every value when all succeed,
    otherwise the earliest error.
  */
  function AllOk<T, E>(rs: seq<Result<T, E>>): Result<seq<T>, E> {
    if |rs| == 0 then Success([])
    else
      match rs[0]
      case Failure(e) => Failure(e)
      case Success(x) =>
        (match AllOk(rs[1..])
         case Failure(e) => Failure(e)
         case Success(xs) => Success([x] + xs))
  }

  /** The run succeeds exactly when each step does, and then lists every step's value in order. */
  lemma {:induction false} AllOkSuccess<T, E>(rs: seq<Result<T, E>>)
    ensures AllOk(rs).Success? <==> forall j :: 0 <= j < |rs| ==> rs[j].Success?
    ensures AllOk(rs).Success? ==>
      && |AllOk(rs).value| == |rs|
      && forall j :: 0 <= j < |rs| ==> rs[j] == Success(AllOk(rs).value[j])
  {
    if |rs| > 0 {
      AllOkSuccess(rs[1..]);
      assert forall j :: 1 <= j < |rs| ==> rs[j] == rs[1..][j - 1];
    }
  }

  /** A failed run reports the error of its first failing step. */
  lemma {:induction false} AllOkFailure<T, E>(rs: seq<Result<T, E>>)
    ensures AllOk(rs).Failure? ==>
      exists k :: 0 <= k < |rs| && rs[k] == Failure(AllOk(rs).error)
        && forall j :: 0 <= j < k ==> rs[j].Success?
  {
    if |rs| > 0 && rs[0].Success? && AllOk(rs).Failure? {
      AllOkFailure(rs[1..]);
      var k :| 0 <= k < |rs| - 1 && rs[1..][k] == Failure(AllOk(rs).error)
        && forall j :: 0 <= j < k ==> rs[1..][j].Success?;
      assert rs[k + 1] == Failure(AllOk(rs).error);
      assert forall j :: 0 <= j < k + 1 ==> rs[j].Success? by {
        forall j | 0 < j < k + 1 ensures rs[j].Success? {
          assert rs[j] == rs[1..][j - 1];
        }
      }
    }
  }
}

=== FILE: round_trip.dfy ===
/**
  Decoding and encoding undo each other. Stated for object schemas whose
  property and `additional` schemas are plain (no nested object, reference
  or date) and whose JSON names are distinct and whose JavaScript names are
  distinct: such an object converts, in either direction, to a copy of
  itself with the declared properties renamed, and converting that copy back
  gives every property its original value.
*/
module RoundTrip {
  import opened Results
  import opened Json
  import opened Schemas
  import opened PropNames
  import opened Engine
  import opened ObjectFacts
  import opened RefFacts
  import opened Plain
  import opened EngineFacts

  /** The opposite direction. */
  function Other(dir: Direction): Direction {
    if dir == Decode then Encode else Decode
  }

  /** The property names read in direction `dir` (written in the other direction). */
  function InSet(props: seq<Prop>, dir: Direction): set<string> {
    set i | 0 <= i < |props| :: InName(props[i], dir)
  }

  /** An object schema with plain parts and distinct names on both sides. */
  predicate Flat(s: Schema) {
    && s.Obj?
    && IsPlain(s.additional)
    && (forall i :: 0 <= i < |s.props| ==> IsPlain(s.props[i].typ))
    && DistinctNames(s.props, Decode) && DistinctNames(s.props, Encode)
  }

  /**
    No own property left undeclared in direction `dir` is named like a
    property that direction writes (it would be assigned after it and
    overwrite it).
  */
  predicate NoShadow(v: JVal, props: seq<Prop>, dir: Direction) {
    forall f :: f in OwnFields(v) && f.name !in InSet(props, dir) ==> f.name !in InSet(props, Other(dir))
  }

  /** What a flat object schema accepts: an object whose declared and undeclared properties are all admitted. */
  ghost predicate FlatAdmits(v: JVal, s: Schema, dir: Direction)
    requires Flat(s)
  {
    && IsObjectLike(v)
    && (forall i :: 0 <= i < |s.props| ==> Admits(s.props[i].typ, Lookup(v, InName(s.props[i], dir))))
    && (forall m :: 0 <= m < |Extras(v, s, dir)| ==> Admits(s.additional, Extras(v, s, dir)[m].val))
  }

  /**
    `w` is `v` with the declared properties renamed for direction `dir`
    (those missing from `v` present as `undefined`) and the undeclared ones
    kept, and no other property.
  */
  ghost predicate RenamedCopy(v: JVal, w: JVal, s: Schema, dir: Direction)
    requires s.Obj?
  {
    && w.JObj? && UniqueNames(w.fields)
    && Names(w.fields) == InSet(s.props, Other(dir)) + Names(Extras(v, s, dir))
    && (forall i :: 0 <= i < |s.props| ==>
          Get(w.fields, InName(s.props[i], Other(dir))) == Some(Lookup(v, InName(s.props[i], dir))))
    && (forall m :: 0 <= m < |Extras(v, s, dir)| ==>
          Get(w.fields, Extras(v, s, dir)[m].name) == Some(Extras(v, s, dir)[m].val))
  }

  /** With distinct names the table holds each property in order, and declares exactly the names read. */
  lemma FlatTable(props: seq<Prop>, dir: Direction)
    requires DistinctNames(props, dir)
    ensures |Entries(props, dir)| == |props|
    ensures forall i :: 0 <= i < |props| ==>
      Entries(props, dir)[i] == Entry(InName(props[i], dir), InName(props[i], Other(dir)), i)
    ensures forall n :: Declares(Entries(props, dir), n) <==> n in InSet(props, dir)
    ensures OutNames(Entries(props, dir)) == InSet(props, Other(dir))
  {
    EntriesOfDistinct(props, dir);
    TableDeclares(props, dir);
    TableWrites(props, dir);
  }

  lemma TableDeclares(props: seq<Prop>, dir: Direction)
    requires |Entries(props, dir)| == |props|
    requires forall i :: 0 <= i < |props| ==> Entries(props, dir)[i].lookup == InName(props[i], dir)
    ensures forall n :: Declares(Entries(props, dir), n) <==> n in InSet(props, dir)
  {
    var es := Entries(props, dir);
    forall n ensures Declares(es, n) <==> n in InSet(props, dir) {
      if n in InSet(props, dir) {
        var i :| 0 <= i < |props| && InName(props[i], dir) == n;
        assert es[i] in es;
      }
      if Declares(es, n) {
        var e :| e in es && e.lookup == n;
        var i :| 0 <= i < |es| && es[i] == e;
        assert InName(props[i], dir) in InSet(props, dir);
      }
    }
  }

  lemma TableWrites(props: seq<Prop>, dir: Direction)
    requires |Entries(props, dir)| == |props|
    requires forall i :: 0 <= i < |props| ==> Entries(props, dir)[i].out == InName(props[i], Other(dir))
    ensures OutNames(Entries(props, dir)) == InSet(props, Other(dir))
  {
    var es := Entries(props, dir);
    forall n ensures n in OutNames(es) <==> n in InSet(props, Other(dir)) {
      if n in InSet(props, Other(dir)) {
        var i :| 0 <= i < |props| && InName(props[i], Other(dir)) == n;
        assert es[i] in es;
      }
      if n in OutNames(es) {
        var e :| e in es && e.out == n;
        var i :| 0 <= i < |es| && es[i] == e;
        assert InName(props[i], Other(dir)) in InSet(props, Other(dir));
      }
    }
  }

  /** The undeclared own properties are the own properties whose name is not read. */
  lemma FlatExtras(v: JVal, s: Schema, dir: Direction)
    requires Flat(s)
    ensures forall f :: f in Extras(v, s, dir) <==> f in OwnFields(v) && f.name !in InSet(s.props, dir)
    ensures UniqueNames(OwnFields(v)) ==> UniqueNames(Extras(v, s, dir))
  {
    FlatTable(s.props, dir);
    UndeclaredSpec(OwnFields(v), Entries(s.props, dir));
  }

  /** A flat object schema converts `v` exactly when it admits `v`. */
  lemma FlatAccepts(ctx: Ctx, dir: Direction, v: JVal, s: Schema, refName: string, key: string, parent: string)
    requires Valid(ctx.reg) && Flat(s)
    ensures Resolved(ctx, dir, v, s, refName, key, parent).Success? <==> FlatAdmits(v, s, dir)
  {
    if IsObjectLike(v) {
      ObjectAccepts(ctx, dir, v, s, refName, key, parent);
      PartsAdmitted(ctx, dir, v, s, refName);
    }
  }

  /** Every part of a flat object converts exactly when the schema admits the object. */
  lemma PartsAdmitted(ctx: Ctx, dir: Direction, v: JVal, s: Schema, refName: string)
    requires Valid(ctx.reg) && Flat(s) && IsObjectLike(v)
    ensures var ts := DeclaredResults(ctx, dir, v, s, refName);
      var us := ExtraResults(ctx, dir, v, s, refName);
      (&& (forall j :: 0 <= j < |ts| ==> ts[j].Success?)
       && (forall j :: 0 <= j < |us| ==> us[j].Success?)) <==> FlatAdmits(v, s, dir)
  {
    DeclaredAllAdmitted(ctx, dir, v, s, refName);
    ExtrasAllAdmitted(ctx, dir, v, s, refName);
  }

  /** All declared properties convert exactly when the schema admits each value read. */
  lemma DeclaredAllAdmitted(ctx: Ctx, dir: Direction, v: JVal, s: Schema, refName: string)
    requires Valid(ctx.reg) && Flat(s)
    ensures var ts := DeclaredResults(ctx, dir, v, s, refName);
      (forall j :: 0 <= j < |ts| ==> ts[j].Success?) <==>
      (forall i :: 0 <= i < |s.props| ==> Admits(s.props[i].typ, Lookup(v, InName(s.props[i], dir))))
  {
    DeclaredAdmitted(ctx, dir, v, s, refName);
  }

  /** All undeclared properties convert exactly when `additional` admits each. */
  lemma ExtrasAllAdmitted(ctx: Ctx, dir: Direction, v: JVal, s: Schema, refName: string)
    requires Valid(ctx.reg) && Flat(s)
    ensures var us := ExtraResults(ctx, dir, v, s, refName);
      var xs := Extras(v, s, dir);
      (forall j :: 0 <= j < |us| ==> us[j].Success?) <==>
      (forall m :: 0 <= m < |xs| ==> Admits(s.additional, xs[m].val))
  {
    ExtrasAdmitted(ctx, dir, v, s, refName);
  }

  /** Each declared property converts exactly when its schema admits the value read. */
  lemma DeclaredAdmitted(ctx: Ctx, dir: Direction, v: JVal, s: Schema, refName: string)
    requires Valid(ctx.reg) && Flat(s)
    ensures var ts := DeclaredResults(ctx, dir, v, s, refName);
      && |ts| == |s.props|
      && forall j :: 0 <= j < |ts| ==>
           (ts[j].Success? <==> Admits(s.props[j].typ, Lookup(v, InName(s.props[j], dir))))
  {
    var ts := DeclaredResults(ctx, dir, v, s, refName);
    FlatTable(s.props, dir);
    forall j | 0 <= j < |ts|
      ensures ts[j].Success? <==> Admits(s.props[j].typ, Lookup(v, InName(s.props[j], dir)))
    {
      DeclaredResultsAt(ctx, dir, v, s, refName, j);
      PlainTransform(ctx, dir, Lookup(v, InName(s.props[j], dir)), s.props[j].typ, InName(s.props[j], dir), refName);
    }
  }

  /** Each undeclared property converts exactly when `additional` admits it. */
  lemma ExtrasAdmitted(ctx: Ctx, dir: Direction, v: JVal, s: Schema, refName: string)
    requires Valid(ctx.reg) && Flat(s)
    ensures var us := ExtraResults(ctx, dir, v, s, refName);
      var xs := Extras(v, s, dir);
      && |us| == |xs|
      && forall m :: 0 <= m < |us| ==> (us[m].Success? <==> Admits(s.additional, xs[m].val))
  {
    var us := ExtraResults(ctx, dir, v, s, refName);
    var xs := Extras(v, s, dir);
    forall m | 0 <= m < |us|
      ensures us[m].Success? <==> Admits(s.additional, xs[m].val)
    {
      ExtraResultsAt(ctx, dir, v, s, refName, m);
      PlainTransform(ctx, dir, xs[m].val, s.additional, xs[m].name, refName);
    }
  }

  /** A converted declared property reads back, under its new name, as the value read from `v`. */
  lemma FlatDeclared(ctx: Ctx, dir: Direction, v: JVal, s: Schema, refName: string, key: string, parent: string, i: nat)
    requires Valid(ctx.reg) && Flat(s) && NoShadow(v, s.props, dir) && i < |s.props|
    ensures var r := Resolved(ctx, dir, v, s, refName, key, parent);
      r.Success? ==>
        && r.value.JObj?
        && Get(r.value.fields, InName(s.props[i], Other(dir))) == Some(Lookup(v, InName(s.props[i], dir)))
  {
    var es := Entries(s.props, dir);
    FlatTable(s.props, dir);
    assert DistinctNames(s.props, Other(dir));
    assert forall k :: i < k < |es| ==> es[k].out != es[i].out;
    assert es[i].out !in Names(Extras(v, s, dir)) by {
      FlatExtras(v, s, dir);
      assert es[i].out in InSet(s.props, Other(dir));
    }
    DeclaredValue(ctx, dir, v, s, refName, key, parent, i);
    DeclaredResultsAt(ctx, dir, v, s, refName, i);
    PlainTransform(ctx, dir, Lookup(v, InName(s.props[i], dir)), s.props[i].typ, InName(s.props[i], dir), refName);
  }

  /** A converted undeclared property reads back unchanged under its own name. */
  lemma FlatExtra(ctx: Ctx, dir: Direction, v: JVal, s: Schema, refName: string, key: string, parent: string, m: nat)
    requires Valid(ctx.reg) && Flat(s) && UniqueNames(OwnFields(v)) && m < |Extras(v, s, dir)|
    ensures var r := Resolved(ctx, dir, v, s, refName, key, parent);
      r.Success? ==>
        && r.value.JObj?
        && Get(r.value.fields, Extras(v, s, dir)[m].name) == Some(Extras(v, s, dir)[m].val)
  {
    var xs := Extras(v, s, dir);
    ExtraValue(ctx, dir, v, s, refName, key, parent, m);
    ExtraResultsAt(ctx, dir, v, s, refName, m);
    PlainTransform(ctx, dir, xs[m].val, s.additional, xs[m].name, refName);
  }

  /** A converted flat object names the written declared properties and the undeclared ones, each once. */
  lemma FlatNames(ctx: Ctx, dir: Direction, v: JVal, s: Schema, refName: string, key: string, parent: string)
    requires Valid(ctx.reg) && Flat(s)
    ensures var r := Resolved(ctx, dir, v, s, refName, key, parent);
      r.Success? ==>
        && r.value.JObj? && UniqueNames(r.value.fields)
        && Names(r.value.fields) == InSet(s.props, Other(dir)) + Names(Extras(v, s, dir))
  {
    var es := Entries(s.props, dir);
    ObjectUnique(ctx, dir, v, s, refName, key, parent);
    ObjectNames(ctx, dir, v, s, refName, key, parent);
    FlatTable(s.props, dir);
    UndeclaredSpec(OwnFields(v), es);
    var xs := Extras(v, s, dir);
    assert Names(xs) == (set f | f in OwnFields(v) && !Declares(es, f.name) :: f.name);
  }

  /** A flat object schema turns every object it admits into its renamed copy. */
  lemma FlatConverts(ctx: Ctx, dir: Direction, v: JVal, s: Schema, refName: string, key: string, parent: string)
    requires Valid(ctx.reg) && Flat(s) && UniqueNames(OwnFields(v)) && NoShadow(v, s.props, dir)
    requires FlatAdmits(v, s, dir)
    ensures var r := Resolved(ctx, dir, v, s, refName, key, parent);
      r.Success? && RenamedCopy(v, r.value, s, dir)
  {
    var xs := Extras(v, s, dir);
    FlatAccepts(ctx, dir, v, s, refName, key, parent);
    FlatNames(ctx, dir, v, s, refName, key, parent);
    forall i | 0 <= i < |s.props|
      ensures Get(Resolved(ctx, dir, v, s, refName, key, parent).value.fields, InName(s.props[i], Other(dir)))
        == Some(Lookup(v, InName(s.props[i], dir)))
    {
      FlatDeclared(ctx, dir, v, s, refName, key, parent, i);
    }
    forall m | 0 <= m < |xs|
      ensures Get(Resolved(ctx, dir, v, s, refName, key, parent).value.fields, xs[m].name) == Some(xs[m].val)
    {
      FlatExtra(ctx, dir, v, s, refName, key, parent, m);
    }
  }

  /** An undeclared property name of `v` is undeclared in the copy too, with the same value. */
  lemma CopyExtra(v: JVal, w: JVal, s: Schema, dir: Direction, f: Field)
    requires Flat(s) && NoShadow(v, s.props, dir) && RenamedCopy(v, w, s, dir)
    requires f in Extras(v, s, dir)
    ensures Field(f.name, f.val) in Extras(w, s, Other(dir))
  {
    var xs := Extras(v, s, dir);
    var m :| 0 <= m < |xs| && xs[m] == f;
    FlatExtras(v, s, dir);
    FlatExtras(w, s, Other(dir));
    assert Other(Other(dir)) == dir;
    assert Field(f.name, f.val) in w.fields;
  }

  /** An undeclared property of the copy is one of `v`'s undeclared properties. */
  lemma CopyExtraBack(v: JVal, w: JVal, s: Schema, dir: Direction, f: Field)
    requires Flat(s) && UniqueNames(OwnFields(v)) && RenamedCopy(v, w, s, dir)
    requires f in Extras(w, s, Other(dir))
    ensures f in Extras(v, s, dir)
  {
    var xs := Extras(v, s, dir);
    FlatExtras(v, s, dir);
    FlatExtras(w, s, Other(dir));
    assert Other(Other(dir)) == dir;
    assert f.name in Names(w.fields);
    var g :| g in xs && g.name == f.name;
    var m :| 0 <= m < |xs| && xs[m] == g;
    GetUnique(w.fields, f);
  }

  /** The renamed copy is itself admitted, and shadows nothing, in the other direction. */
  lemma CopyAdmits(v: JVal, w: JVal, s: Schema, dir: Direction)
    requires Flat(s) && UniqueNames(OwnFields(v)) && NoShadow(v, s.props, dir)
    requires FlatAdmits(v, s, dir) && RenamedCopy(v, w, s, dir)
    ensures NoShadow(w, s.props, Other(dir))
    ensures FlatAdmits(w, s, Other(dir))
  {
    CopyNoShadow(v, w, s, dir);
    CopyAdmitsExtras(v, w, s, dir);
    assert Other(Other(dir)) == dir;
    forall i | 0 <= i < |s.props|
      ensures Admits(s.props[i].typ, Lookup(w, InName(s.props[i], Other(dir))))
    {
    }
  }

  lemma CopyNoShadow(v: JVal, w: JVal, s: Schema, dir: Direction)
    requires Flat(s) && UniqueNames(OwnFields(v)) && RenamedCopy(v, w, s, dir)
    ensures NoShadow(w, s.props, Other(dir))
  {
    FlatExtras(w, s, Other(dir));
    assert Other(Other(dir)) == dir;
    forall f | f in OwnFields(w) && f.name !in InSet(s.props, Other(dir))
      ensures f.name !in InSet(s.props, dir)
    {
      assert f in Extras(w, s, Other(dir));
      CopyExtraBack(v, w, s, dir, f);
      FlatExtras(v, s, dir);
    }
  }

  lemma CopyAdmitsExtras(v: JVal, w: JVal, s: Schema, dir: Direction)
    requires Flat(s) && UniqueNames(OwnFields(v))
    requires FlatAdmits(v, s, dir) && RenamedCopy(v, w, s, dir)
    ensures forall m :: 0 <= m < |Extras(w, s, Other(dir))| ==> Admits(s.additional, Extras(w, s, Other(dir))[m].val)
  {
    var xs := Extras(v, s, dir);
    var ys := Extras(w, s, Other(dir));
    forall m | 0 <= m < |ys|
      ensures Admits(s.additional, ys[m].val)
    {
      assert ys[m] in ys;
      CopyExtraBack(v, w, s, dir, ys[m]);
      var k :| 0 <= k < |xs| && xs[k] == ys[m];
    }
  }

  /**
    Converting the renamed copy back restores `v`: every property reads as
    in `v`, and the result has `v`'s properties plus the declared ones `v`
    lacked (present as `undefined`).
  */
  lemma CopyBack(v: JVal, w: JVal, u: JVal, s: Schema, dir: Direction)
    requires Flat(s) && UniqueNames(OwnFields(v)) && NoShadow(v, s.props, dir)
    requires RenamedCopy(v, w, s, dir) && RenamedCopy(w, u, s, Other(dir))
    ensures u.JObj?
    ensures Names(u.fields) == Names(OwnFields(v)) + InSet(s.props, dir)
    ensures forall n :: Lookup(u, n) == Lookup(v, n)
  {
    BackNames(v, w, u, s, dir);
    forall n ensures Lookup(u, n) == Lookup(v, n) {
      BackLookup(v, w, u, s, dir, n);
    }
  }

  /** Undeclared names survive the trip both ways. */
  lemma ExtraNamesKept(v: JVal, w: JVal, s: Schema, dir: Direction)
    requires Flat(s) && UniqueNames(OwnFields(v)) && NoShadow(v, s.props, dir)
    requires RenamedCopy(v, w, s, dir)
    ensures Names(Extras(w, s, Other(dir))) == Names(Extras(v, s, dir))
  {
    var xs := Extras(v, s, dir);
    var ys := Extras(w, s, Other(dir));
    forall n ensures n in Names(ys) <==> n in Names(xs) {
      if n in Names(ys) {
        var f :| f in ys && f.name == n;
        CopyExtraBack(v, w, s, dir, f);
      }
      if n in Names(xs) {
        var f :| f in xs && f.name == n;
        CopyExtra(v, w, s, dir, f);
      }
    }
  }

  lemma BackNames(v: JVal, w: JVal, u: JVal, s: Schema, dir: Direction)
    requires Flat(s) && UniqueNames(OwnFields(v)) && NoShadow(v, s.props, dir)
    requires RenamedCopy(v, w, s, dir) && RenamedCopy(w, u, s, Other(dir))
    ensures u.JObj?
    ensures Names(u.fields) == Names(OwnFields(v)) + InSet(s.props, dir)
  {
    var xs := Extras(v, s, dir);
    ExtraNamesKept(v, w, s, dir);
    assert Other(Other(dir)) == dir;
    FlatExtras(v, s, dir);
    assert Names(xs) + InSet(s.props, dir) == Names(OwnFields(v)) + InSet(s.props, dir) by {
      forall n | n in Names(OwnFields(v)) && n !in InSet(s.props, dir) ensures n in Names(xs) {
        var f :| f in OwnFields(v) && f.name == n;
      }
    }
  }

  lemma BackLookup(v: JVal, w: JVal, u: JVal, s: Schema, dir: Direction, n: string)
    requires Flat(s) && UniqueNames(OwnFields(v)) && NoShadow(v, s.props, dir)
    requires RenamedCopy(v, w, s, dir) && RenamedCopy(w, u, s, Other(dir))
    requires Names(u.fields) == Names(OwnFields(v)) + InSet(s.props, dir)
    ensures Lookup(u, n) == Lookup(v, n)
  {
    if n in InSet(s.props, dir) {
      var i :| 0 <= i < |s.props| && InName(s.props[i], dir) == n;
      BackDeclared(v, w, u, s, dir, i);
    } else if n in Names(OwnFields(v)) {
      var f :| f in OwnFields(v) && f.name == n;
      BackExtra(v, w, u, s, dir, f);
    }
  }

  /** A declared property reads back as in `v` after the trip. */
  lemma BackDeclared(v: JVal, w: JVal, u: JVal, s: Schema, dir: Direction, i: nat)
    requires s.Obj? && i < |s.props|
    requires RenamedCopy(v, w, s, dir) && RenamedCopy(w, u, s, Other(dir))
    ensures Lookup(u, InName(s.props[i], dir)) == Lookup(v, InName(s.props[i], dir))
  {
    assert Other(Other(dir)) == dir;
  }

  /** An undeclared property reads back as in `v` after the trip. */
  lemma BackExtra(v: JVal, w: JVal, u: JVal, s: Schema, dir: Direction, f: Field)
    requires Flat(s) && UniqueNames(OwnFields(v)) && NoShadow(v, s.props, dir)
    requires RenamedCopy(v, w, s, dir) && RenamedCopy(w, u, s, Other(dir))
    requires f in OwnFields(v) && f.name !in InSet(s.props, dir)
    ensures Lookup(u, f.name) == Lookup(v, f.name)
  {
    var ys := Extras(w, s, Other(dir));
    FlatExtras(v, s, dir);
    CopyExtra(v, w, s, dir, f);
    var m :| 0 <= m < |ys| && ys[m] == Field(f.name, f.val);
    assert Get(u.fields, ys[m].name) == Some(ys[m].val);
    GetUnique(OwnFields(v), f);
  }

  /**
    The round trip: a value a flat object schema admits converts, and its
    conversion converts back in the other direction to an object that reads
    exactly like the original.
  */
  lemma FlatRoundTrip(ctx: Ctx, dir: Direction, v: JVal, s: Schema)
    requires Valid(ctx.reg) && Flat(s) && UniqueNames(OwnFields(v)) && NoShadow(v, s.props, dir)
    requires FlatAdmits(v, s, dir)
    ensures Transform(ctx, dir, v, s, "", "").Success?
    ensures Transform(ctx, Other(dir), Transform(ctx, dir, v, s, "", "").value, s, "", "").Success?
    ensures var u := Transform(ctx, Other(dir), Transform(ctx, dir, v, s, "", "").value, s, "", "").value;
      && u.JObj?
      && Names(u.fields) == Names(OwnFields(v)) + InSet(s.props, dir)
      && forall n :: Lookup(u, n) == Lookup(v, n)
  {
    var w := Transform(ctx, dir, v, s, "", "");
    assert w == Resolved(ctx, dir, v, s, "", "", "");
    FlatConverts(ctx, dir, v, s, "", "", "");
    CopyAdmits(v, w.value, s, dir);
    FlatConverts(ctx, Other(dir), w.value, s, "", "", "");
    var u := Transform(ctx, Other(dir), w.value, s, "", "");
    assert u == Resolved(ctx, Other(dir), w.value, s, "", "", "");
    CopyBack(v, w.value, u.value, s, dir);
  }

  /** `uncast(cast(v))` for a flat object schema. */
  lemma CastThenUncast(ctx: Ctx, v: JVal, s: Schema)
    requires Valid(ctx.reg) && Flat(s) && UniqueNames(OwnFields(v)) && NoShadow(v, s.props, Decode)
    requires FlatAdmits(v, s, Decode)
    ensures Cast(ctx, v, s).Success? && Uncast(ctx, Cast(ctx, v, s).value, s).Success?
    ensures var u := Uncast(ctx, Cast(ctx, v, s).value, s).value;
      && u.JObj?
      && Names(u.fields) == Names(OwnFields(v)) + InSet(s.props, Decode)
      && forall n :: Lookup(u, n) == Lookup(v, n)
  {
    FlatRoundTrip(ctx, Decode, v, s);
  }

  /**
    `uncast(cast(v, r(n)), r(n))` for a name whose definition is a flat object
    schema: through the reference the object reads back exactly as before.
  */
  lemma RefCastThenUncast(ctx: Ctx, v: JVal, n: string)
    requires Valid(ctx.reg) && n in ctx.reg.defs && Flat(ctx.reg.defs[n])
    requires UniqueNames(OwnFields(v)) && NoShadow(v, ctx.reg.defs[n].props, Decode)
    requires FlatAdmits(v, ctx.reg.defs[n], Decode)
    ensures Cast(ctx, v, Ref(n)).Success? && Uncast(ctx, Cast(ctx, v, Ref(n)).value, Ref(n)).Success?
    ensures var u := Uncast(ctx, Cast(ctx, v, Ref(n)).value, Ref(n)).value;
      && u.JObj?
      && Names(u.fields) == Names(OwnFields(v)) + InSet(ctx.reg.defs[n].props, Decode)
      && forall k :: Lookup(u, k) == Lookup(v, k)
  {
    var s := ctx.reg.defs[n];
    RefStep(ctx, Decode, v, n, "", "");
    FlatConverts(ctx, Decode, v, s, n, "", "");
    var w := Cast(ctx, v, Ref(n)).value;
    CopyAdmits(v, w, s, Decode);
    RefStep(ctx, Encode, w, n, "", "");
    FlatConverts(ctx, Encode, w, s, n, "", "");
    CopyBack(v, w, Uncast(ctx, w, Ref(n)).value, s, Decode);
  }
  // ----- where the round trip does not hold -----

  /**
    A date does not come back as the text it was read from: decoding turns
    an accepted string into a date, and encoding a date yields a date again
    or fails.
  */
  lemma DateNotRestored(ctx: Ctx, v: JVal)
    requires Valid(ctx.reg) && v.JStr? && Cast(ctx, v, DateT).Success?
    ensures Cast(ctx, v, DateT).value.JDate?
    ensures Uncast(ctx, Cast(ctx, v, DateT).value, DateT) != Success(v)
  {
    DateCoercion(ctx, Decode, v, "", "");
    var w := Cast(ctx, v, DateT).value;
    DateCoercion(ctx, Encode, w, "", "");
  }

  /**
    A union of object schemas can take a different member in each
    direction. In `u(o([{json: p, js: q, typ: 0}], false), m("any"))` the
    object `{q: x}` has no `p`, so decoding fails the first member and the
    second copies the object unchanged; encoding the copy reads `q` as the
    first member's JavaScript name and writes it under `p`. The round trip
    loses `q`.
  */
  lemma UnionSwitchesMember(ctx: Ctx, p: string, q: string, x: JVal)
    requires Valid(ctx.reg) && p != q && x.JNum?
    ensures var s := Union([Obj([Prop(p, q, Prim(PNumber))], Never), MapOf(Any)]);
      var w := Cast(ctx, JObj([Field(q, x)]), s);
      && w.Success? && Lookup(w.value, q) == x
      && Uncast(ctx, w.value, s).Success?
      && Lookup(Uncast(ctx, w.value, s).value, q) == Undefined
      && Lookup(Uncast(ctx, w.value, s).value, p) == x
  {
    var a := Obj([Prop(p, q, Prim(PNumber))], Never);
    var b := MapOf(Any);
    var v := JObj([Field(q, x)]);
    DecodeMisses(ctx, a, v, p, q);
    var w := Transform(ctx, Decode, v, b, "", "");
    DecodeCopies(ctx, v, q, x);
    UnionOfTwo(ctx, Decode, v, a, b);
    EncodeRenames(ctx, a, w.value, p, q, x);
    UnionOfTwo(ctx, Encode, w.value, a, b);
  }

  /** Of two members, the first that converts decides. */
  lemma UnionOfTwo(ctx: Ctx, dir: Direction, v: JVal, a: Schema, b: Schema)
    requires Valid(ctx.reg)
    ensures var t := Transform(ctx, dir, v, Union([a, b]), "", "");
      && (Transform(ctx, dir, v, a, "", "").Success? ==> t == Transform(ctx, dir, v, a, "", ""))
      && (Transform(ctx, dir, v, a, "", "").Failure? && Transform(ctx, dir, v, b, "", "").Success? ==>
            t == Transform(ctx, dir, v, b, "", ""))
  {
    var s := Union([a, b]);
    assert Transform(ctx, dir, v, s, "", "") == Resolved(ctx, dir, v, s, "", "", "");
    assert s.members[0] == a && s.members[1] == b;
    var ta := Transform(ctx, dir, v, a, "", "");
    var tb := Transform(ctx, dir, v, b, "", "");
    assert TryMembers(ctx, dir, v, s, 2) == None;
    if ta.Success? {
      assert TryMembers(ctx, dir, v, s, 0) == Some(ta.value);
    } else if tb.Success? {
      assert TryMembers(ctx, dir, v, s, 1) == Some(tb.value);
      assert TryMembers(ctx, dir, v, s, 0) == Some(tb.value);
    }
  }

  /** Decoding with the single number property read as `p` fails on an object without `p`. */
  lemma DecodeMisses(ctx: Ctx, a: Schema, v: JVal, p: string, q: string)
    requires Valid(ctx.reg) && a == Obj([Prop(p, q, Prim(PNumber))], Never) && v.JObj? && p !in Names(v.fields)
    ensures Transform(ctx, Decode, v, a, "", "").Failure?
  {
    assert Flat(a);
    assert InName(a.props[0], Decode) == p;
    FlatAccepts(ctx, Decode, v, a, "", "", "");
  }

  /** `m("any")` copies the one-property object `{q: x}`. */
  lemma DecodeCopies(ctx: Ctx, v: JVal, q: string, x: JVal)
    requires Valid(ctx.reg) && v == JObj([Field(q, x)])
    ensures var w := Transform(ctx, Decode, v, MapOf(Any), "", "");
      && w.Success? && w.value.JObj? && UniqueNames(w.value.fields)
      && Names(w.value.fields) == {q} && Lookup(w.value, q) == x
  {
    var b := MapOf(Any);
    assert Flat(b);
    var xs := Extras(v, b, Decode);
    FlatExtras(v, b, Decode);
    assert xs[0] == Field(q, x) by {
      HeadIn(xs);
      assert Field(q, x) in v.fields;
    }
    assert Names(xs) == {q} by {
      forall f | f in xs ensures f == Field(q, x) {
        assert f in v.fields;
      }
    }
    FlatConverts(ctx, Decode, v, b, "", "", "");
  }

  /** Encoding an object that holds only `q`, a number, writes it under `p` and nothing under `q`. */
  lemma EncodeRenames(ctx: Ctx, a: Schema, w: JVal, p: string, q: string, x: JVal)
    requires Valid(ctx.reg) && a == Obj([Prop(p, q, Prim(PNumber))], Never) && p != q && x.JNum?
    requires w.JObj? && UniqueNames(w.fields) && Names(w.fields) == {q} && Lookup(w, q) == x
    ensures var u := Transform(ctx, Encode, w, a, "", "");
      && u.Success?
      && Lookup(u.value, q) == Undefined
      && Lookup(u.value, p) == x
  {
    assert Flat(a);
    assert InName(a.props[0], Encode) == q && InName(a.props[0], Decode) == p;
    NothingUndeclared(w, a, q);
    var r := Resolved(ctx, Encode, w, a, "", "", "");
    assert Transform(ctx, Encode, w, a, "", "") == r;
    FlatConverts(ctx, Encode, w, a, "", "", "");
    ReadsRenamed(w, r.value, a, p, q);
  }

  /** The renamed copy holds the value of `q` under `p`, and nothing under `q`. */
  lemma ReadsRenamed(w: JVal, u: JVal, a: Schema, p: string, q: string)
    requires a == Obj([Prop(p, q, Prim(PNumber))], Never) && p != q
    requires RenamedCopy(w, u, a, Encode) && Extras(w, a, Encode) == []
    ensures Lookup(u, q) == Undefined && Lookup(u, p) == Lookup(w, q)
  {
    assert InName(a.props[0], Encode) == q && InName(a.props[0], Decode) == p;
    assert InSet(a.props, Decode) == {p};
  }

  /** An object holding only the one property an object schema reads leaves nothing undeclared. */
  lemma NothingUndeclared(w: JVal, a: Schema, q: string)
    requires Flat(a) && InSet(a.props, Encode) == {q}
    requires w.JObj? && Names(w.fields) == {q}
    ensures Extras(w, a, Encode) == []
  {
    var ys := Extras(w, a, Encode);
    FlatExtras(w, a, Encode);
    HeadIn(ys);
    HeadNamed(ys, w.fields);
  }
}

=== FILE: schema.dfy ===
/**
  The schema language of the converter. In the source a schema is an
  "example value": `""`, `0`/`3.14` and `true` stand for string, number and
  boolean, `null` for null, `false` for "never valid", `"any"` for anything,
  `undefined` for a missing value, `Date` for a date, a plain array for an enum
  of string literals, and `u(...)`, `a(...)`, `o(...)`, `m(...)`, `r(...)`
  build unions, arrays, objects, maps and references.
*/
module Schemas {
  import opened Json

  datatype PrimKind = PString | PNumber | PBoolean

  /** One declared property: its name in JSON, its name in the typed value, its schema. */
  datatype Prop = Prop(json: string, js: string, typ: Schema)

  datatype Schema =
    | Any                                       // "any"
    | Null                                      // null
    | Never                                     // false
    | Absent                                    // undefined
    | Prim(kind: PrimKind)                      // "", 0 or 3.14, true
    | Enum(cases: seq<string>)                  // ["US", ...]
    | Union(members: seq<Schema>)               // u(...)
    | Arr(items: Schema)                        // a(...)
    | Obj(props: seq<Prop>, additional: Schema) // o(props, additional)
    | DateT                                     // Date
    | Ref(name: string)                         // r(name)

  /** `m(additional)`: an object with no declared properties. */
  function MapOf(additional: Schema): Schema {
    Obj([], additional)
  }

  /**
    `typeof typ` for the JavaScript value that stands for `s`:
    the string "any" is a string, `false` a boolean, `Date` a function.
  */
  function SchemaType(s: Schema): JsType {
    match s
    case Any => TString
    case Never => TBoolean
    case Absent => TUndefined
    case Prim(k) =>
      (match k
       case PString => TString
       case PNumber => TNumber
       case PBoolean => TBoolean)
    case DateT => TFunction
    case _ => TObject
  }

  /**
    The registry of named schemas (`typeMap`). `rank` witnesses that reference
    chains are well founded: a definition only mentions names of lower rank.
  */
  datatype Registry = Registry(defs: map<string, Schema>, rank: map<string, nat>)

  function Max(a: nat, b: nat): nat {
    if a < b then b else a
  }

  function MaxOf(xs: seq<nat>): (m: nat)
    ensures forall i :: 0 <= i < |xs| ==> xs[i] <= m
  {
    if |xs| == 0 then 0 else Max(xs[0], MaxOf(xs[1..]))
  }

  /** One more than the highest rank of a name `s` refers to; 0 when it refers to none. */
  function Level(reg: Registry, s: Schema): nat {
    match s
    case Ref(n) => (if n in reg.rank then reg.rank[n] else 0) + 1
    case Union(ms) => MaxOf(seq(|ms|, i requires 0 <= i < |ms| => Level(reg, ms[i])))
    case Arr(e) => Level(reg, e)
    case Obj(ps, add) =>
      Max(Level(reg, add), MaxOf(seq(|ps|, i requires 0 <= i < |ps| => Level(reg, ps[i].typ))))
    case _ => 0
  }

  /** Every definition is ranked and mentions only names of lower rank. */
  ghost predicate Valid(reg: Registry) {
    forall n :: n in reg.defs ==> n in reg.rank && Level(reg, reg.defs[n]) <= reg.rank[n]
  }

  /** A schema's parts never sit higher than the schema itself. */
  lemma LevelOfParts(reg: Registry, s: Schema)
    ensures s.Union? ==> forall i :: 0 <= i < |s.members| ==> Level(reg, s.members[i]) <= Level(reg, s)
    ensures s.Arr? ==> Level(reg, s.items) <= Level(reg, s)
    ensures s.Obj? ==> Level(reg, s.additional) <= Level(reg, s)
    ensures s.Obj? ==> forall i :: 0 <= i < |s.props| ==> Level(reg, s.props[i].typ) <= Level(reg, s)
  {
    match s
    case Union(ms) =>
      var xs := seq(|ms|, i requires 0 <= i < |ms| => Level(reg, ms[i]));
      assert forall i :: 0 <= i < |ms| ==> xs[i] == Level(reg, ms[i]);
    case Obj(ps, add) =>
      var xs := seq(|ps|, i requires 0 <= i < |ps| => Level(reg, ps[i].typ));
      assert forall i :: 0 <= i < |ps| ==> xs[i] == Level(reg, ps[i].typ);
    case _ =>
  }

  /** No reference anywhere inside. */
  predicate RefFree(s: Schema) {
    match s
    case Ref(_) => false
    case Union(ms) => forall m :: m in ms ==> RefFree(m)
    case Arr(e) => RefFree(e)
    case Obj(ps, add) => RefFree(add) && forall p :: p in ps ==> RefFree(p.typ)
    case _ => true
  }

  lemma {:induction false} MaxOfZeros(xs: seq<nat>)
    requires forall i :: 0 <= i < |xs| ==> xs[i] == 0
    ensures MaxOf(xs) == 0
  {
    if |xs| > 0 {
      MaxOfZeros(xs[1..]);
    }
  }

  /** A schema that names no reference sits at level 0, whatever the ranks. */
  lemma {:induction false} RefFreeLevel(reg: Registry, s: Schema)
    requires RefFree(s)
    ensures Level(reg, s) == 0
  {
    match s
    case Union(ms) =>
      var xs := seq(|ms|, i requires 0 <= i < |ms| => Level(reg, ms[i]));
      forall i | 0 <= i < |ms| ensures xs[i] == 0 {
        assert ms[i] in ms;
        RefFreeLevel(reg, ms[i]);
      }
      MaxOfZeros(xs);
    case Arr(e) => RefFreeLevel(reg, e);
    case Obj(ps, add) =>
      var xs := seq(|ps|, i requires 0 <= i < |ps| => Level(reg, ps[i].typ));
      forall i | 0 <= i < |ps| ensures xs[i] == 0 {
        assert ps[i] in ps;
        RefFreeLevel(reg, ps[i].typ);
      }
      MaxOfZeros(xs);
      RefFreeLevel(reg, add);
    case _ =>
  }
}

=== FILE: task_store.dfy ===
/**
  The task store's three actions (`addNewTask`, `removeTask`, `markDone`) as
  pure functions from the task list before the action to the list after it.
  The fresh id that `uid()` would draw is a parameter.
*/
module TaskStore {
  import opened Results

  /** A task record: its id, its label text and whether it is done. */
  datatype Task = Task(id: string, text: string, done: bool)

  /** No task in the list carries `id`. */
  predicate NoTaskWithId(tasks: seq<Task>, id: string) {
    forall j :: 0 <= j < |tasks| ==> tasks[j].id != id
  }

  /** `addNewTask`: the task takes the fresh id and is pushed at the end. */
  function AddNewTask(tasks: seq<Task>, task: Task, freshId: string): (r: seq<Task>)
    ensures |r| == |tasks| + 1
    ensures r[..|tasks|] == tasks
    ensures r[|tasks|].id == freshId && r[|tasks|].text == task.text && r[|tasks|].done == task.done
  {
    tasks + [task.(id := freshId)]
  }

  /** `removeTask`: keep exactly the tasks whose id differs from `id`. */
  function RemoveTask(tasks: seq<Task>, id: string): (r: seq<Task>)
    ensures forall t :: t in r <==> t in tasks && t.id != id
    ensures forall t :: multiset(r)[t] == if t.id == id then 0 else multiset(tasks)[t]
    ensures NoTaskWithId(r, id)
    ensures |r| <= |tasks|
  {
    if |tasks| == 0 then []
    else
      assert tasks == [tasks[0]] + tasks[1..];
      if tasks[0].id == id then RemoveTask(tasks[1..], id)
      else [tasks[0]] + RemoveTask(tasks[1..], id)
  }

  /** On a single task, removal keeps it exactly when its id differs. */
  lemma RemoveOne(t: Task, id: string)
    ensures RemoveTask([t], id) == if t.id == id then [] else [t]
  {
    assert [t][1..] == [];
  }

  /** Removing from a concatenation removes from each part, keeping the relative order of what stays. */
  lemma {:induction false} RemoveConcat(a: seq<Task>, b: seq<Task>, id: string)
    ensures RemoveTask(a + b, id) == RemoveTask(a, id) + RemoveTask(b, id)
  {
    if |a| > 0 {
      assert (a + b)[1..] == a[1..] + b;
      RemoveConcat(a[1..], b, id);
    } else {
      assert a + b == b;
    }
  }

  /** When no task carries the id the list is returned unchanged. */
  lemma {:induction false} RemoveMissing(tasks: seq<Task>, id: string)
    requires NoTaskWithId(tasks, id)
    ensures RemoveTask(tasks, id) == tasks
  {
    if |tasks| > 0 {
      assert tasks == [tasks[0]] + tasks[1..];
      RemoveMissing(tasks[1..], id);
    }
  }

  /** Removing twice is removing once. */
  lemma RemoveIdempotent(tasks: seq<Task>, id: string)
    ensures RemoveTask(RemoveTask(tasks, id), id) == RemoveTask(tasks, id)
  {
    RemoveMissing(RemoveTask(tasks, id), id);
  }

  /** Removing the fresh id right after adding it gives back the list before. */
  lemma RemoveUndoesAdd(tasks: seq<Task>, task: Task, freshId: string)
    requires NoTaskWithId(tasks, freshId)
    ensures RemoveTask(AddNewTask(tasks, task, freshId), freshId) == tasks
  {
    var t := task.(id := freshId);
    RemoveConcat(tasks, [t], freshId);
    RemoveMissing(tasks, freshId);
    assert RemoveTask([t], freshId) == [];
  }

  /** `find`: the position of the first task carrying `id`. */
  function FirstIndex(tasks: seq<Task>, id: string): (r: Option<nat>)
    ensures r.Some? ==> r.value < |tasks| && tasks[r.value].id == id
    ensures r.Some? ==> forall j :: 0 <= j < r.value ==> tasks[j].id != id
    ensures r.None? <==> NoTaskWithId(tasks, id)
  {
    if |tasks| == 0 then None
    else if tasks[0].id == id then Some(0)
    else
      match FirstIndex(tasks[1..], id)
      case None => None
      case Some(k) => Some(k + 1)
  }

  /** The first task carrying `id` is the one at `j`. */
  predicate IsFirst(tasks: seq<Task>, id: string, j: nat)
    requires j < |tasks|
  {
    tasks[j].id == id && forall k :: 0 <= k < j ==> tasks[k].id != id
  }

  /** `markDone`: flip `done` on the first task carrying `id`, if there is one. */
  function MarkDone(tasks: seq<Task>, id: string): (r: seq<Task>)
    ensures |r| == |tasks|
    ensures forall j :: 0 <= j < |tasks| ==> r[j].id == tasks[j].id && r[j].text == tasks[j].text
    ensures forall j :: 0 <= j < |tasks| ==> (r[j].done != tasks[j].done <==> IsFirst(tasks, id, j))
    ensures NoTaskWithId(tasks, id) ==> r == tasks
  {
    match FirstIndex(tasks, id)
    case None => tasks
    case Some(i) => tasks[i := tasks[i].(done := !tasks[i].done)]
  }

  /** Marking the same id twice restores the list. */
  lemma MarkDoneTwice(tasks: seq<Task>, id: string)
    ensures MarkDone(MarkDone(tasks, id), id) == tasks
  {
    var once := MarkDone(tasks, id);
    var twice := MarkDone(once, id);
    forall j | 0 <= j < |tasks|
      ensures twice[j] == tasks[j]
    {
      assert IsFirst(once, id, j) <==> IsFirst(tasks, id, j);
    }
  }
}

=== FILE: type_map.dfy ===
/**
  The job schema's registry (`typeMap`), restricted to the entries that name
  no other entry, and what the converter does with some of them.
*/
module TypeMap {
  import opened Results
  import opened Json
  import opened Schemas
  import opened PropNames
  import opened Errors
  import opened Engine
  import opened EngineFacts
  import opened ObjectFacts
  import opened RefFacts
  import opened Plain
  import opened RoundTrip

  const Str := Prim(PString)
  const Num := Prim(PNumber)
  const Bool := Prim(PBoolean)

  /** A property with one name on both sides, as every property of the registry has. */
  function Same(name: string, typ: Schema): Prop {
    Prop(name, name, typ)
  }

  /** `u(undefined, a(""))`: an optional list of strings. */
  const OptionalStrings := Union([Absent, Arr(Str)])

  const Parameters := Obj([Same("query", Str), Same("page", Num), Same("num_pages", Num)], Never)

  const JobHighlights := Obj(
    [Same("Qualifications", OptionalStrings), Same("Responsibilities", OptionalStrings), Same("Benefits", OptionalStrings)],
    Never)

  const JobRequiredExperience := Obj(
    [ Same("no_experience_required", Bool), Same("required_experience_in_months", Union([Num, Null])),
      Same("experience_mentioned", Bool), Same("experience_preferred", Bool)],
    Never)

  const JobRequiredEducation := Obj(
    [ Same("postgraduate_degree", Bool), Same("professional_certification", Bool), Same("high_school", Bool),
      Same("associates_degree", Bool), Same("bachelors_degree", Bool), Same("degree_mentioned", Bool),
      Same("degree_preferred", Bool), Same("professional_certification_mentioned", Bool)],
    Never)

  const Defs: map<string, Schema> := map[
    "JobHighlights" := JobHighlights,
    "JobRequiredEducation" := JobRequiredEducation,
    "JobRequiredExperience" := JobRequiredExperience,
    "Parameters" := Parameters,
    "JobCountry" := Enum(["US"]),
    "JobEmploymentType" := Enum(["FULLTIME"]),
    "JobState" := Enum(["TX"])
  ]

  /** None of these entries names another, so every name has rank 0. */
  const Reg := Registry(Defs, map n | n in Defs :: 0)

  lemma RegValid()
    ensures Valid(Reg)
  {
    LevelZero(Parameters);
    LevelZero(JobHighlights);
    LevelZero(JobRequiredEducation);
    LevelZero(JobRequiredExperience);
    forall n | n in Reg.defs ensures n in Reg.rank && Level(Reg, Reg.defs[n]) <= Reg.rank[n] {
      if n !in {"Parameters", "JobHighlights", "JobRequiredEducation", "JobRequiredExperience"} {
        assert Reg.defs[n].Enum?;
      }
    }
  }

  /** The four object entries name no other entry. */
  lemma LevelZero(s: Schema)
    requires s in {Parameters, JobHighlights, JobRequiredEducation, JobRequiredExperience}
    ensures Level(Reg, s) == 0
  {
    forall p | p in s.props ensures RefFree(p.typ) {
      if s == JobHighlights {
        assert p.typ == OptionalStrings;
      } else if s == JobRequiredEducation {
        assert p.typ == Bool;
      }
    }
    RefFreeLevel(Reg, s);
  }

  /** `r("JobCountry")` accepts exactly the string "US", unchanged, and otherwise lists the allowed literal. */
  lemma CountryOnlyUS(ctx: Ctx, dir: Direction, v: JVal, key: string, parent: string)
    requires ctx.reg == Reg && Valid(ctx.reg)
    ensures Transform(ctx, dir, v, Ref("JobCountry"), key, parent)
      == if v == JStr("US") then Success(v) else Failure(Invalid(ExpLiterals(["US"]), v, key, parent))
  {
    RefTransparent(ctx, dir, v, "JobCountry", key, parent);
    assert v.JStr? && v.str in ["US"] <==> v == JStr("US");
  }

  /*
    The facts about `Parameters` are proved for every object schema of its
    shape, with the three names as parameters, and then instantiated.
  */

  /** A closed object of a string property `q` and number properties `p` and `n`, declared in that order. */
  predicate Paged(s: Schema, q: string, p: string, n: string) {
    && s.Obj? && s.additional == Never && |s.props| == 3
    && s.props[0] == Same(q, Str) && s.props[1] == Same(p, Num) && s.props[2] == Same(n, Num)
    && q != p && q != n && p != n
  }

  /** Each of the three properties holds a value of its type. */
  predicate WellTyped(v: JVal, q: string, p: string, n: string) {
    Lookup(v, q).JStr? && Lookup(v, p).JNum? && Lookup(v, n).JNum?
  }

  lemma PagedFlat(s: Schema, q: string, p: string, n: string)
    requires Paged(s, q, p, n)
    ensures Flat(s)
    ensures forall dir :: InSet(s.props, dir) == {q, p, n}
    ensures forall dir :: Entries(s.props, dir) == [Entry(q, q, 0), Entry(p, p, 1), Entry(n, n, 2)]
  {
    forall dir ensures InSet(s.props, dir) == {q, p, n} && Entries(s.props, dir) == [Entry(q, q, 0), Entry(p, p, 1), Entry(n, n, 2)] {
      assert InName(s.props[0], dir) == q && InName(s.props[1], dir) == p && InName(s.props[2], dir) == n;
      EntriesOfDistinct(s.props, dir);
    }
  }

  /** A primitive schema admits exactly the values of its type. */
  lemma AdmitsPrim(x: JVal)
    ensures Admits(Str, x) <==> x.JStr?
    ensures Admits(Num, x) <==> x.JNum?
    ensures Admits(Bool, x) <==> x.JBool?
  {
  }

  /** Every declared property converts exactly when the three are well typed. */
  lemma PagedDeclared(ctx: Ctx, dir: Direction, v: JVal, s: Schema, q: string, p: string, n: string, refName: string)
    requires Valid(ctx.reg) && Paged(s, q, p, n)
    ensures Flat(s)
    ensures var ts := DeclaredResults(ctx, dir, v, s, refName);
      (forall k :: 0 <= k < |ts| ==> ts[k].Success?) <==> WellTyped(v, q, p, n)
  {
    var props := s.props;
    PagedFlat(s, q, p, n);
    DeclaredAdmitted(ctx, dir, v, s, refName);
    AdmitsPrim(Lookup(v, q));
    AdmitsPrim(Lookup(v, p));
    AdmitsPrim(Lookup(v, n));
    assert InName(props[0], dir) == q && InName(props[1], dir) == p && InName(props[2], dir) == n;
  }

  /**
    A closed flat object whose declared properties all convert fails on an
    undeclared own property, under the reference name.
  */
  lemma ClosedFlatRejects(ctx: Ctx, dir: Direction, v: JVal, s: Schema, refName: string, key: string, parent: string)
    requires Valid(ctx.reg) && Flat(s) && s.additional == Never && IsObjectLike(v)
    requires var ts := DeclaredResults(ctx, dir, v, s, refName); forall k :: 0 <= k < |ts| ==> ts[k].Success?
    requires exists f :: f in OwnFields(v) && f.name !in InSet(s.props, dir)
    ensures var r := Resolved(ctx, dir, v, s, refName, key, parent);
      && r.Failure? && r.error.Invalid?
      && r.error.expected == ExpSchema(Never) && r.error.parent == refName
      && r.error.key !in InSet(s.props, dir)
      && Field(r.error.key, r.error.value) in OwnFields(v)
  {
    FlatExtras(v, s, dir);
    var xs := Extras(v, s, dir);
    var f :| f in OwnFields(v) && f.name !in InSet(s.props, dir);
    assert f in xs;
    assert xs[0] in xs;
    ClosedObjectRejectsExtra(ctx, dir, v, s, refName, key, parent);
  }

  /** With `q` a string and `p` missing, the object fails on `p`, read as `undefined`. */
  lemma PagedMissing(ctx: Ctx, dir: Direction, v: JVal, name: string, q: string, p: string, n: string, key: string, parent: string)
    requires Valid(ctx.reg) && name in ctx.reg.defs && Paged(ctx.reg.defs[name], q, p, n)
    requires IsObjectLike(v) && p !in Names(OwnFields(v)) && Lookup(v, q).JStr?
    ensures Transform(ctx, dir, v, Ref(name), key, parent) == Failure(Invalid(ExpSchema(Num), Undefined, p, name))
  {
    var s := ctx.reg.defs[name];
    PagedFlat(s, q, p, n);
    DeclaredAdmitted(ctx, dir, v, s, name);
    AdmitsPrim(Lookup(v, q));
    assert InName(s.props[0], dir) == q;
    MissingField(ctx, dir, v, name, key, parent, 1);
  }

  /** The object-level half of `PagedExtra`. */
  lemma PagedRejects(ctx: Ctx, dir: Direction, v: JVal, s: Schema, q: string, p: string, n: string, refName: string, key: string, parent: string)
    requires Valid(ctx.reg) && Paged(s, q, p, n) && IsObjectLike(v) && WellTyped(v, q, p, n)
    requires exists f :: f in OwnFields(v) && f.name !in {q, p, n}
    ensures var r := Resolved(ctx, dir, v, s, refName, key, parent);
      && r.Failure? && r.error.Invalid?
      && r.error.expected == ExpSchema(Never) && r.error.parent == refName
      && r.error.key !in {q, p, n}
      && Field(r.error.key, r.error.value) in OwnFields(v)
  {
    PagedFlat(s, q, p, n);
    PagedDeclared(ctx, dir, v, s, q, p, n, refName);
    ClosedFlatRejects(ctx, dir, v, s, refName, key, parent);
  }

  /** A well-typed object with one more own property fails on an undeclared property, under the reference name. */
  lemma PagedExtra(ctx: Ctx, dir: Direction, v: JVal, name: string, q: string, p: string, n: string, key: string, parent: string)
    requires Valid(ctx.reg) && name in ctx.reg.defs && Paged(ctx.reg.defs[name], q, p, n)
    requires IsObjectLike(v) && WellTyped(v, q, p, n)
    requires exists f :: f in OwnFields(v) && f.name !in {q, p, n}
    ensures var r := Transform(ctx, dir, v, Ref(name), key, parent);
      && r.Failure? && r.error.Invalid?
      && r.error.expected == ExpSchema(Never) && r.error.parent == name
      && r.error.key !in {q, p, n}
      && Field(r.error.key, r.error.value) in OwnFields(v)
  {
    RefStep(ctx, dir, v, name, key, parent);
    PagedRejects(ctx, dir, v, ctx.reg.defs[name], q, p, n, name, key, parent);
  }

  /** An object whose own properties are all declared has nothing undeclared, so nothing to shadow. */
  lemma PagedNoExtras(v: JVal, s: Schema, q: string, p: string, n: string, dir: Direction)
    requires Paged(s, q, p, n)
    requires forall f :: f in OwnFields(v) ==> f.name in {q, p, n}
    ensures Flat(s) && Extras(v, s, dir) == [] && NoShadow(v, s.props, dir)
  {
    var xs := Extras(v, s, dir);
    PagedFlat(s, q, p, n);
    FlatExtras(v, s, dir);
    HeadIn(xs);
  }

  /** A well-typed object with nothing undeclared is admitted. */
  lemma PagedAdmits(v: JVal, s: Schema, q: string, p: string, n: string, dir: Direction)
    requires Paged(s, q, p, n) && IsObjectLike(v) && WellTyped(v, q, p, n)
    requires Flat(s) && Extras(v, s, dir) == []
    ensures FlatAdmits(v, s, dir)
  {
    var props := s.props;
    forall i | 0 <= i < |props|
      ensures Admits(props[i].typ, Lookup(v, InName(props[i], dir)))
    {
      if i == 0 {
        assert InName(props[0], dir) == q;
      } else if i == 1 {
        assert InName(props[1], dir) == p;
      } else {
        assert InName(props[2], dir) == n;
      }
    }
  }

  /** The three well-typed properties are own properties, so declaring them adds no name. */
  lemma PagedPresent(v: JVal, s: Schema, q: string, p: string, n: string)
    requires Paged(s, q, p, n) && v.JObj? && WellTyped(v, q, p, n)
    ensures Names(v.fields) + InSet(s.props, Decode) == Names(v.fields)
  {
    PagedFlat(s, q, p, n);
    assert Field(q, Lookup(v, q)) in v.fields;
    assert Field(p, Lookup(v, p)) in v.fields;
    assert Field(n, Lookup(v, n)) in v.fields;
  }

  /** `uncast(cast(v))` through the reference gives back the same properties with the same values. */
  lemma PagedRoundTrip(ctx: Ctx, v: JVal, name: string, q: string, p: string, n: string)
    requires Valid(ctx.reg) && name in ctx.reg.defs && Paged(ctx.reg.defs[name], q, p, n)
    requires v.JObj? && UniqueNames(v.fields) && WellTyped(v, q, p, n)
    requires forall f :: f in v.fields ==> f.name in {q, p, n}
    ensures Cast(ctx, v, Ref(name)).Success?
    ensures Uncast(ctx, Cast(ctx, v, Ref(name)).value, Ref(name)).Success?
    ensures var u := Uncast(ctx, Cast(ctx, v, Ref(name)).value, Ref(name)).value;
      && u.JObj? && Names(u.fields) == Names(v.fields)
      && forall k :: Lookup(u, k) == Lookup(v, k)
  {
    var s := ctx.reg.defs[name];
    PagedNoExtras(v, s, q, p, n, Decode);
    PagedAdmits(v, s, q, p, n, Decode);
    PagedPresent(v, s, q, p, n);
    RefCastThenUncast(ctx, v, name);
  }

  lemma ParametersPaged()
    ensures Paged(Parameters, "query", "page", "num_pages")
  {
  }

  /**
    An object with a string `query` but no `page` is refused with `page` as
    key and `Parameters` as parent: `page` is read as `undefined`, which is
    not a number.
  */
  lemma ParametersMissingPage(ctx: Ctx, dir: Direction, v: JVal, key: string, parent: string)
    requires ctx.reg == Reg && Valid(ctx.reg) && IsObjectLike(v)
    requires "page" !in Names(OwnFields(v)) && Lookup(v, "query").JStr?
    ensures Transform(ctx, dir, v, Ref("Parameters"), key, parent)
      == Failure(Invalid(ExpSchema(Num), Undefined, "page", "Parameters"))
  {
    ParametersPaged();
    PagedMissing(ctx, dir, v, "Parameters", "query", "page", "num_pages", key, parent);
  }

  /**
    A well-typed `Parameters` object with one more own property is refused
    because `additional` is `false`: the error names an own property that is
    not declared, with its value, and `Parameters` as parent.
  */
  lemma ParametersExtraKey(ctx: Ctx, dir: Direction, v: JVal, key: string, parent: string)
    requires ctx.reg == Reg && Valid(ctx.reg) && IsObjectLike(v)
    requires WellTyped(v, "query", "page", "num_pages")
    requires exists f :: f in OwnFields(v) && f.name !in {"query", "page", "num_pages"}
    ensures var r := Transform(ctx, dir, v, Ref("Parameters"), key, parent);
      && r.Failure? && r.error.Invalid?
      && r.error.expected == ExpSchema(Never) && r.error.parent == "Parameters"
      && r.error.key !in {"query", "page", "num_pages"}
      && Field(r.error.key, r.error.value) in OwnFields(v)
  {
    ParametersPaged();
    PagedExtra(ctx, dir, v, "Parameters", "query", "page", "num_pages", key, parent);
  }

  /**
    Decoding a `Parameters` object and encoding the result gives back an
    object with the same properties and the same values.
  */
  lemma ParametersRoundTrip(ctx: Ctx, v: JVal)
    requires ctx.reg == Reg && Valid(ctx.reg) && v.JObj? && UniqueNames(v.fields)
    requires WellTyped(v, "query", "page", "num_pages")
    requires forall f :: f in v.fields ==> f.name in {"query", "page", "num_pages"}
    ensures Cast(ctx, v, Ref("Parameters")).Success?
    ensures Uncast(ctx, Cast(ctx, v, Ref("Parameters")).value, Ref("Parameters")).Success?
    ensures var u := Uncast(ctx, Cast(ctx, v, Ref("Parameters")).value, Ref("Parameters")).value;
      && u.JObj? && Names(u.fields) == Names(v.fields)
      && forall n :: Lookup(u, n) == Lookup(v, n)
  {
    ParametersPaged();
    PagedRoundTrip(ctx, v, "Parameters", "query", "page", "num_pages");
  }

  /** Three optional lists of strings, named alike on both sides: the shape of `JobHighlights`. */
  predicate Optionals(s: Schema, a: string, b: string, c: string) {
    && s.Obj? && s.additional == Never && |s.props| == 3
    && s.props[0] == Same(a, OptionalStrings) && s.props[1] == Same(b, OptionalStrings) && s.props[2] == Same(c, OptionalStrings)
    && a != b && a != c && b != c
  }

  lemma OptionalsFlat(s: Schema, a: string, b: string, c: string)
    requires Optionals(s, a, b, c)
    ensures Flat(s)
    ensures forall dir :: InSet(s.props, dir) == {a, b, c}
  {
    forall dir ensures InSet(s.props, dir) == {a, b, c} {
      assert InName(s.props[0], dir) == a && InName(s.props[1], dir) == b && InName(s.props[2], dir) == c;
    }
  }

  /** The object-level half of `OptionalsEmpty`. */
  lemma EmptyCopy(ctx: Ctx, dir: Direction, s: Schema, a: string, b: string, c: string, refName: string, key: string, parent: string)
    requires Valid(ctx.reg) && Optionals(s, a, b, c)
    ensures var r := Resolved(ctx, dir, JObj([]), s, refName, key, parent);
      && r.Success? && r.value.JObj?
      && Names(r.value.fields) == {a, b, c}
      && Get(r.value.fields, a) == Some(Undefined)
      && Get(r.value.fields, b) == Some(Undefined)
      && Get(r.value.fields, c) == Some(Undefined)
  {
    var v := JObj([]);
    var props := s.props;
    OptionalsFlat(s, a, b, c);
    assert InName(props[0], dir) == a && InName(props[1], dir) == b && InName(props[2], dir) == c;
    assert Admits(OptionalStrings, Undefined) by {
      assert Admits(OptionalStrings.members[0], Undefined);
    }
    assert Extras(v, s, dir) == [];
    assert FlatAdmits(v, s, dir);
    FlatConverts(ctx, dir, v, s, refName, key, parent);
  }

  /** An empty object passes: each list reads as `undefined`, which the union's first member accepts, and is written back as such. */
  lemma OptionalsEmpty(ctx: Ctx, dir: Direction, name: string, a: string, b: string, c: string, key: string, parent: string)
    requires Valid(ctx.reg) && name in ctx.reg.defs && Optionals(ctx.reg.defs[name], a, b, c)
    ensures var r := Transform(ctx, dir, JObj([]), Ref(name), key, parent);
      && r.Success? && r.value.JObj?
      && Names(r.value.fields) == {a, b, c}
      && Get(r.value.fields, a) == Some(Undefined)
      && Get(r.value.fields, b) == Some(Undefined)
      && Get(r.value.fields, c) == Some(Undefined)
  {
    RefStep(ctx, dir, JObj([]), name, key, parent);
    EmptyCopy(ctx, dir, ctx.reg.defs[name], a, b, c, name, key, parent);
  }

  lemma HighlightsOptionals()
    ensures Optionals(JobHighlights, "Qualifications", "Responsibilities", "Benefits")
  {
  }

  /** `r("JobHighlights")` accepts an empty object, and the result holds the three lists as `undefined`. */
  lemma HighlightsOptional(ctx: Ctx, dir: Direction, key: string, parent: string)
    requires ctx.reg == Reg && Valid(ctx.reg)
    ensures var r := Transform(ctx, dir, JObj([]), Ref("JobHighlights"), key, parent);
      && r.Success? && r.value.JObj?
      && Names(r.value.fields) == {"Qualifications", "Responsibilities", "Benefits"}
      && Get(r.value.fields, "Qualifications") == Some(Undefined)
      && Get(r.value.fields, "Responsibilities") == Some(Undefined)
      && Get(r.value.fields, "Benefits") == Some(Undefined)
  {
    HighlightsOptionals();
    OptionalsEmpty(ctx, dir, "JobHighlights", "Qualifications", "Responsibilities", "Benefits", key, parent);
  }

  /** How the optional lists print in an error: an array schema prints as "object". */
  lemma OptionalStringsName()
    ensures PrettyTypeName(ExpMembers(OptionalStrings.members)) == "an optional object"
  {
  }

  /**
    A missing `required_experience_in_months` (`u(0, null)`) is rejected where
    it stands, listing both members, so `MissingField` applies to it.
  */
  lemma MissingMonthsRejected(ctx: Ctx, dir: Direction, key: string, parent: string)
    requires Valid(ctx.reg)
    ensures var t := JobRequiredExperience.props[1].typ;
      Transform(ctx, dir, Undefined, t, key, parent) == Failure(Invalid(ExpMembers(t.members), Undefined, key, parent))
  {
    var t := JobRequiredExperience.props[1].typ;
    assert t == Union([Num, Null]);
    assert Transform(ctx, dir, Undefined, Num, "", "").Failure?;
    UnionFirstWins(ctx, dir, Undefined, t.members, key, parent);
  }
}
